=== FILE: README.md ===
# Todalu front end in Dafny

This project models the front end of the Todalu Lisp interpreter. It covers:

- the closed set of AST node kinds, with their truthiness, printed form and tag;
- the comment-line test and the tokenizer;
- the recursive-descent reader `create_ast`, with its integer test `is_int`;
- the parenthesis-balance gate and the line accumulator, which decide when concatenated input lines are submitted as one form;
- the line handler `handle_line`, which wraps an evaluator kept abstract;
- the library loader `load_granthalaya`.

Everything is a pure function over strings, token lists and one `Node` datatype. There are two methods: the line loop of `interpret_stream`, and the counting loop of main.cpp's own `is_balanced`. The reader's error cases are stated with the exact messages the source throws.

Modules, following the source:

| module | file | models |
|---|---|---|
| `Errors` | errors.dfy | the `TodaluException` messages as an `Error` datatype, and `Result` |
| `Chars` | chars.dfy | C `isspace`, digits, whitespace skipping and removal, concatenation of string lists |
| `IntText` | int_text.dfy | `std::stoi` / `is_int` and `std::to_string` for `int` |
| `Ast` | ast.dfy | the node classes of `ast.h`: `type`, `getBool`, `getRepr` |
| `Lexer` | lexer.dfy | `is_comment` and `tokenizer` |
| `Parser` | parser.dfy | `create_ast` and its string-literal rejoining |
| `ParseReference` | parse_reference.dfy | a flat depth-counting scan that predicts every verdict of `create_ast` |
| `ParseOrder` | parse_order.dfy | source order of the nodes read, and reading two token runs in sequence |
| `RoundTrip` | round_trip.dfy | printing a node and reading it back |
| `Balance` | balance.dfy | both copies of `is_balanced` |
| `Accumulator` | accumulator.dfy | the line loop of `interpret_stream` |
| `Interpret` | interpret.dfy | `handle_line` and `load_granthalaya` |

How the external pieces are represented:

- `handle_line` is virtual in `Inpiler` (src/include/common.h:13), and the compiler overrides it (src/compile.cpp:100). `LoadLines` and `LoadGranthalaya` fix the handler to the interpreter's `handle_line`; the compiler's is not modelled.
- `eval_tree` is a parameter of type `(S, Node) -> (S, Result<Node>)`. `S` is an environment the model knows nothing about.
- `is_float` and `get_float` are the two function fields of `FloatSyntax`.
- The printed forms of decimals, strings and lambdas are the function fields of `Printer`.
- A thrown `TodaluException` is a `Failure` carrying the same message.

## Model

| member | source | states |
|---|---|---|
| Ast.TypeIdentifiesVariant | src/include/ast.h:4-85 | two nodes have the same `type()` tag exactly when they were built by the same variant |
| Ast.Type | src/include/ast.h:4-85 | each of the seven tags is returned exactly for its own node kind: `Bool` for Booleans, `Integer` for integers, `Decimal` for decimals, `String` for strings, `Symbol` for symbols, `List` for lists and `Lambda` for lambdas |
| Ast.GetBool | src/include/ast.h:17-88 | a node is false exactly when it is the false Bool, integer 0, decimal 0, the empty string or the empty list; symbols and lambdas are always true |
| Ast.Repr | src/include/ast.h:20-97 | true prints as "t" and false as "nil"; a symbol prints as its name; a list prints as "( " … ")" and prints as "( )" exactly when it is empty; an integer prints as text that `is_int` accepts and `stoi` reads back to the same value |
| Ast.ListReprJoinsChildren | src/include/ast.h:89-97 | a list prints as "( ", then each child's printed form followed by one space, in order, then ")" |
| Ast.TruthAgreesWithRepr | src/include/ast.h:17-97 | a Bool or list is false exactly when it prints as "nil" or "( )" |
| IntText.IntToString | src/include/ast.h:36-38 | `to_string` of an `int` starts with `-` exactly when the value is negative; after that sign come one or more digits with no leading zero; it has no blanks, parentheses or quotes, and `is_int` accepts it with `stoi` reading back the same value |
| IntText.IsIntGrammar | src/ast.cpp:8-16 | `is_int` accepts exactly an optionally signed decimal numeral, after leading blanks, with nothing after it and a value in `int` range; `stoi` returns that value |
| IntText.TrailingLetterRejected | src/ast.cpp:8-16 | "12a" is not an integer, because `stoi` stops before the letter |
| IntText.OverflowRejected | src/ast.cpp:8-16 | "2147483648" is not an integer, because `stoi` throws `out_of_range` |
| IntText.MinIntAccepted | src/ast.cpp:8-16 | "-2147483648" is an integer with that value |
| IntText.PlusSignAccepted | src/ast.cpp:8-16 | "+7" is the integer 7 |
| IntText.LoneSignRejected | src/ast.cpp:8-16 | "-" alone is not an integer |
| IntText.NonNumericStartRejected | src/ast.cpp:8-16 | a token whose first character is not a blank, a digit or a sign is never an integer |
| Lexer.IsComment | src/common.cpp:21-28 | a line is a comment exactly when it is all blank or its first non-blank character is `#` |
| Lexer.LeadingHashIsComment | src/common.cpp:21-28 | " # (def x 1)" is a comment even though code follows the `#` |
| Lexer.LaterHashIsNotComment | src/common.cpp:23-25 | "x # y" is not a comment |
| Lexer.BlankIsComment | src/common.cpp:21-28 | the empty line and a line of blanks are comments |
| Lexer.Tokenizer | src/common.cpp:30-41 | the rewritten argument has no newline and a space on each side of every parenthesis; the tokens are the blank-separated words of that text, as `ss >> token` reads them; every token is non-empty and blank-free, parentheses are tokens of their own, and the tokens concatenated give the input with its whitespace removed |
| Lexer.RewriteIsPadAll | src/common.cpp:31-33 | the three regex replacements equal one pass that turns a newline into a space and pads each parenthesis with spaces |
| Lexer.WordsSplit | src/common.cpp:35-39 | a blank splits token extraction into two independent halves |
| Parser.ReadString | src/ast.cpp:47-55 | a literal token absorbs the following tokens, joined by single spaces, up to the first one that ends in a quote; with no such token it fails with "Unmatched '\"'" |
| Parser.Unquote | src/ast.cpp:56-56 | the stored text is the literal without its outer quotes; a lone `"` gives the empty text |
| Parser.CreateAst | src/ast.cpp:32-69 | no tokens fails with "Unexpected EOF while reading input"; a top-level success consumes every token and yields at least one node; a nested success stops right after its `)`; every failure is one of the reader's errors, and a nested call never reports "Unexpected ')'" |
| Parser.ReadsOneAtom | src/ast.cpp:57-64 | a lone plain token reads as an integer with `stoi`'s value when `is_int` accepts it, whatever `is_float` says; otherwise as a decimal with `get_float`'s value when `is_float` accepts it; otherwise as a symbol spelled as the token |
| Parser.ReadsStringLiteral | src/ast.cpp:47-56 | a run of tokens that opens a literal with its first token and first closes it with its last reads as one string node, whatever `is_float` accepts: the tokens joined with single spaces, without the outer quotes |
| Parser.QuotedNumeralIsString | src/ast.cpp:47-58 | the token `"1"` reads as the string "1", not as the integer 1 |
| Parser.SplitLiteralRejoined | src/ast.cpp:47-56 | the tokens `"a` and `b"` read as the one string "a b" |
| Parser.ParseLoop | src/ast.cpp:38-67 | the nodes already read stay in front, in order, and a top-level loop over tokens always adds a node |
| ParseReference.ParserMatchesScan | src/ast.cpp:32-69 | `create_ast` at top level succeeds exactly when the flat depth scan accepts, and otherwise throws exactly the error the scan names |
| ParseReference.LoneOpenIsEof | src/ast.cpp:35-43 | a lone "(" fails with "Unexpected EOF while reading input", raised by the nested call |
| ParseReference.TopLevelCloseRejected | src/ast.cpp:44-45 | a top-level ")" fails with "Unexpected ')'" |
| ParseReference.UnclosedListRejected | src/ast.cpp:67-67 | a nested list that runs out of tokens fails with "Unmatched '('" |
| ParseReference.UnterminatedStringRejected | src/ast.cpp:49-50 | a literal that never closes fails with "Unmatched '\"'" |
| ParseOrder.AccumulatorShifts | src/ast.cpp:38-65 | reading with nodes already pushed gives those nodes followed by what reading from nothing gives |
| ParseOrder.ReadsInSourceOrder | src/ast.cpp:38-68 | two token runs that each read at top level read together as the first run's nodes followed by the second's |
| RoundTrip.PrintThenRead | src/include/ast.h:89-97 | the printed form of a node built from integers, plain symbols and lists tokenizes to that node's tokens and reads back as exactly that node |
| RoundTrip.TrueReadsAsSymbol | src/ast.cpp:61-63 | the printed form "t" of true reads back as the symbol `t`, not as a Bool |
| Balance.ParenCountIsDifference | src/include/common.h:16-23 | the final counter is the number of `(` minus the number of `)` |
| Balance.BalancedIffFewerOpens | src/include/common.h:15-24 | a text is balanced exactly when it has at most as many `(` as `)` |
| Balance.MainIsBalanced | src/main.cpp:13-22 | the loop in main.cpp computes the same predicate as `Inpiler::is_balanced` |
| Balance.OtherCharsIgnored | src/include/common.h:17-21 | inserting any character other than a parenthesis never changes the verdict |
| Balance.OrderIgnored | src/include/common.h:16-23 | two texts with the same characters, in any order, get the same verdict |
| Balance.BalancedConcat | src/include/common.h:16-23 | the count is additive over concatenation, so two balanced texts concatenate to a balanced text |
| Balance.NoParensBalanced | src/include/common.h:16-23 | a text without parentheses is balanced |
| Balance.CloseThenOpenBalanced | src/include/common.h:16-23 | ")(" is balanced |
| Balance.UnclosedFormNotBalanced | src/include/common.h:16-23 | "(f x" is not balanced, while "(f x))" is |
| Accumulator.Feed | src/main.cpp:24-35 | every submitted text is balanced, and the submissions followed by the final buffer spell out the starting buffer followed by all the lines |
| Accumulator.InterpretStream | src/main.cpp:24-35 | the loop submits exactly the texts of `Feed` and ends with its buffer; every submission is balanced, and the submissions followed by the buffer spell out all the lines |
| Accumulator.FeedIsGroups | src/main.cpp:28-34 | each submitted text is the concatenation, without a separator, of a run of consecutive lines |
| Accumulator.GroupsDecompose | src/main.cpp:28-34 | the input splits into the submitted runs followed by the leftover; each run is balanced and has no balanced shorter leading run; no leading run of the leftover is balanced |
| Accumulator.DecompositionUnique | src/main.cpp:28-34 | any split with those three properties is the one the loop makes |
| Accumulator.SubmittedIsUniqueDecomposition | src/main.cpp:28-34 | a split of the input has those properties exactly when it is the loop's, and then the loop submits the texts of its runs and keeps the leftover's text |
| Accumulator.LeftoverUnbalanced | src/main.cpp:28-35 | a remainder left at the end of input is unbalanced, so it is never submitted |
| Accumulator.LinesJoinWithoutSeparator | src/main.cpp:29-29 | the lines "(a" and "b)" are submitted as the one text "(ab)" |
| Interpret.HandleLine | src/interpret.cpp:13-28 | a comment or blank line replies "" with the environment untouched; the reply is "" only for such lines; a line of code that fails to read raises the reader's error with the environment untouched; a line of code succeeds only when it reads as exactly one form; every other successful reply ends with a newline |
| Interpret.HandleRead | src/interpret.cpp:15-27 | after reading, a read error is raised with the environment untouched; no form replies "" with the environment untouched (a branch `handle_line` never reaches, since a line of code has tokens and a successful top-level read yields a form); more than one form fails with "Contains more than one node at the base" with the environment untouched; one form is evaluated, and the reply is its value's printed form and a newline, or the evaluator's error, in the environment the evaluator left |
| Interpret.OneFormReplied | src/interpret.cpp:20-27 | a line of code that reads as exactly one form is evaluated as that form; the environment is the one the evaluator leaves, and the reply is the value's printed form and a newline, or the evaluator's error |
| Interpret.ManyFormsRejected | src/interpret.cpp:20-21 | a line of code that reads as more than one form fails with "Contains more than one node at the base", with the environment untouched and nothing evaluated |
| Interpret.Reply | src/interpret.cpp:23-27 | an evaluated value replies with exactly its printed form followed by a newline, and an evaluation error is passed on; either way the environment is the one the evaluator left |
| Interpret.CodeHasTokens | src/interpret.cpp:14-18 | a line that is not a comment has at least one token, so it never reads as zero forms |
| Interpret.ReadErrorsPropagate | src/interpret.cpp:15-16 | when the flat scan rejects a line's tokens, `handle_line` raises exactly that error and leaves the environment alone; when it accepts, the only errors are "more than one node" or the evaluator's |
| Interpret.EvaluatesPrinted | src/interpret.cpp:23-27 | the printed form of a readable node is evaluated as that very node and replied with the value's printed form and a newline |
| Interpret.ListsAndIntegersAreCode | src/interpret.cpp:14-14 | printed lists and integers are never taken for comments |
| Interpret.TwoFormsRejected | src/interpret.cpp:20-21 | two printed forms on one line fail with "Contains more than one node at the base" before anything is evaluated |
| Interpret.LoadHandlesSubmitted | src/common.cpp:7-19 | `load_granthalaya` handles exactly the texts the accumulator submits, in order, and stops at the first error |
| Interpret.LoadGranthalaya | src/common.cpp:7-19 | loading the library from an empty buffer handles exactly the texts the accumulator submits for its lines, in order, stopping at the first error |
| Interpret.HandleAllAppend | src/common.cpp:11-18 | handling two runs of chunks is handling the second from the environment the first left, unless the first failed |
| Interpret.CommentsLeaveEnvironment | src/common.cpp:11-18 | a library of comment chunks loads without error and without touching the environment |

## Left out

- The LLVM compiler (src/compile.cpp), the runtime (src/trt.cpp) and the REPL (src/repl.cpp) are not modelled. They are foreign library calls, floating point and terminal I/O.
- The `main` and `load_library` bodies are not modelled, because they are file and stream I/O. The embedded library text is a parameter, already split into lines.
- `interpret_line` is not part of this model. `InterpretStream` returns the texts it would be called with.
- Accumulator.InterpretStream: in the source, a `TodaluException` thrown by `interpret_line` is not caught in `interpret_stream`, so it ends the loop and the lines after it are never submitted. The model treats `interpret_line` as a sink that never throws. Stopping at the first error is modelled for `load_granthalaya` by `HandleAll`.
- The evaluator (`eval_tree`, `bind_arguments`, `unbind_arguments`, `operate_on_node`) is only declared in src/include/interpret.h, so it is a function parameter. The model gives special forms no meaning.
- `is_float` and `get_float` are abstract. `float` stream extraction depends on the C library, so it is the `FloatSyntax` parameter and decimals are `real`.
- The printed forms of decimals (`std::to_string(float)`), strings and lambdas are abstract. A lambda prints its address, so its printed form is not deterministic.
- `StringNode` is built at src/ast.cpp:56, but its class is not defined in src/include/ast.h, and `ASTNodeType` has no String tag. The model adds a `Str` variant with its own tag. It treats a string as false exactly when it is empty, and leaves its printed form abstract.
- `free_ast`, `free_env` and the `delete` of the evaluated result are not modelled. They manage memory and are not observable in a value model.
- Balance.ParenCountIsDifference: the counter is an unbounded integer here. The source's `int` would overflow only after more than 2^31-1 unmatched `(` in one buffer.
- RoundTrip.PrintThenRead: it is stated only for integers, symbols that read back as symbols, and lists of these. The other printed forms are abstract, and a Bool prints as a symbol name (see `TrueReadsAsSymbol`).
- Interpret.EvaluatesPrinted: it requires that the printed form is not a comment. A symbol whose name starts with `#` prints as a comment line.
- Interpret.ReadErrorsPropagate: evaluator errors can carry any message, so a failing reply is not always a reader error.
- Character classes follow the C locale. `isspace` is space, tab, newline, vertical tab, form feed and carriage return. Strings are sequences of characters, with no byte encoding.

=== FILE: accumulator.dfy ===
/** The line accumulator of `interpret_stream` (src/main.cpp:24-35) and of
    `Inpiler::load_granthalaya` (src/common.cpp:7-19). Lines are read one at
    a time (the line reader drops the newline), appended to a buffer without
    any separator, and the buffer is submitted as one form as soon as it is
    balanced, after which it starts again empty.

    `Feed` is the string buffer exactly as the loops keep it. `GroupsFrom`
    is the same fold over lines rather than characters, which makes it
    possible to say which lines each submitted form was built from; the two
    are proved to agree, and `Decomposes` characterises the grouping without
    reference to the loop. */
module Accumulator {
  import opened Chars
  import opened Balance

  /** The lines of a buffer, appended to one another. */
  function Flatten(gs: seq<seq<string>>): seq<string> {
    if gs == [] then [] else gs[0] + Flatten(gs[1..])
  }

  /** The text of each group of lines. */
  function Texts(gs: seq<seq<string>>): (ts: seq<string>)
    ensures |ts| == |gs|
    ensures forall i :: 0 <= i < |gs| ==> ts[i] == Concat(gs[i])
  {
    if gs == [] then [] else [Concat(gs[0])] + Texts(gs[1..])
  }

  /** No nonempty run of leading lines of `ls` has balanced text. */
  predicate NeverBalanced(ls: seq<string>) {
    forall k :: 0 < k <= |ls| ==> !IsBalanced(Concat(ls[..k]))
  }

  /** A group is nonempty, its text is balanced, and no shorter run of its
      leading lines is: the balance check runs after every line, so a
      submission happens at the first line where the buffer balances. */
  predicate Minimal(g: seq<string>) {
    |g| > 0 && IsBalanced(Concat(g)) && NeverBalanced(g[..|g| - 1])
  }

  /** `lines` splits into the submitted `groups` followed by the lines
      still waiting in the buffer, which never balanced. */
  predicate Decomposes(lines: seq<string>, groups: seq<seq<string>>, left: seq<string>) {
    && Flatten(groups) + left == lines
    && (forall i :: 0 <= i < |groups| ==> Minimal(groups[i]))
    && NeverBalanced(left)
  }

  /** How a submission keeps the text: the submitted buffer, the later
      submissions and the final buffer spell out the buffer and the lines. */
  lemma SubmitStep(buffer: string, l: string, rest: seq<string>, sub: seq<string>, left: string)
    requires Concat(sub) + left == Concat(rest)
    ensures Concat([buffer + l] + sub) + left == buffer + Concat([l] + rest)
  {
    ConcatCons(buffer + l, sub);
    ConcatCons(l, rest);
    calc {
      Concat([buffer + l] + sub) + left;
      (buffer + l + Concat(sub)) + left;
      buffer + l + (Concat(sub) + left);
      buffer + (l + Concat(rest));
    }
  }

  lemma HoldStep(buffer: string, l: string, rest: seq<string>, sub: seq<string>, left: string)
    requires Concat(sub) + left == buffer + l + Concat(rest)
    ensures Concat(sub) + left == buffer + Concat([l] + rest)
  {
    ConcatCons(l, rest);
  }

  /** The loop of `interpret_stream`, with `buffer` the pending
      `wholeline`: it returns the texts submitted in order and the buffer
      left at the end of input. Every submitted text is balanced, and
      nothing is lost or added: the submissions and the final buffer spell
      out the starting buffer followed by all the lines. */
  function Feed(lines: seq<string>, buffer: string): (r: (seq<string>, string))
    ensures forall i :: 0 <= i < |r.0| ==> IsBalanced(r.0[i])
    ensures Concat(r.0) + r.1 == buffer + Concat(lines)
    decreases |lines|
  {
    if lines == [] then ([], buffer)
    else
      var whole := buffer + lines[0];
      assert [lines[0]] + lines[1..] == lines;
      if IsBalanced(whole) then
        var r := Feed(lines[1..], "");
        assert "" + Concat(lines[1..]) == Concat(lines[1..]);
        SubmitStep(buffer, lines[0], lines[1..], r.0, r.1);
        ([whole] + r.0, r.1)
      else
        var r := Feed(lines[1..], whole);
        HoldStep(buffer, lines[0], lines[1..], r.0, r.1);
        r
  }

  lemma FeedHold(lines: seq<string>, buffer: string)
    requires lines != [] && !IsBalanced(buffer + lines[0])
    ensures Feed(lines, buffer) == Feed(lines[1..], buffer + lines[0])
  {
  }

  lemma FeedSubmit(lines: seq<string>, buffer: string)
    requires lines != [] && IsBalanced(buffer + lines[0])
    ensures Feed(lines, buffer) == ([buffer + lines[0]] + Feed(lines[1..], "").0, Feed(lines[1..], "").1)
  {
  }

  /** The same fold, keeping the buffered lines apart. */
  function GroupsFrom(lines: seq<string>, pending: seq<string>): (seq<seq<string>>, seq<string>)
    decreases |lines|
  {
    if lines == [] then ([], pending)
    else
      var p := pending + [lines[0]];
      if IsBalanced(Concat(p)) then
        var r := GroupsFrom(lines[1..], []);
        ([p] + r.0, r.1)
      else
        GroupsFrom(lines[1..], p)
  }

  function Groups(lines: seq<string>): (seq<seq<string>>, seq<string>) {
    GroupsFrom(lines, [])
  }

  /** The texts submitted for a whole input, and the unbalanced text left
      over at its end. */
  function Submitted(lines: seq<string>): seq<string> {
    Feed(lines, "").0
  }

  function Leftover(lines: seq<string>): string {
    Feed(lines, "").1
  }

  lemma ConcatPush(ls: seq<string>, l: string)
    ensures Concat(ls + [l]) == Concat(ls) + l
  {
    assert (ls + [l])[..|ls|] == ls;
  }

  /** The string buffer of the loop is the text of the buffered lines:
      `Feed` submits exactly the texts of the line groups. */
  lemma {:induction false} FeedIsGroups(lines: seq<string>, pending: seq<string>)
    ensures Feed(lines, Concat(pending)).0 == Texts(GroupsFrom(lines, pending).0)
    ensures Feed(lines, Concat(pending)).1 == Concat(GroupsFrom(lines, pending).1)
    decreases |lines|
  {
    if lines != [] {
      var p := pending + [lines[0]];
      ConcatPush(pending, lines[0]);
      if IsBalanced(Concat(p)) {
        var none: seq<string> := [];
        FeedIsGroups(lines[1..], none);
        var r := GroupsFrom(lines[1..], none);
        assert ([p] + r.0)[1..] == r.0;
      } else {
        FeedIsGroups(lines[1..], p);
      }
    }
  }

  lemma SplitAppend<X>(a: seq<X>, b: seq<X>)
    ensures (a + b)[..|a|] == a && (a + b)[|a|..] == b
  {
  }

  lemma PushSplit<X>(pending: seq<X>, lines: seq<X>)
    requires lines != []
    ensures pending + lines == (pending + [lines[0]]) + lines[1..]
    ensures (pending + [lines[0]])[..|pending|] == pending
  {
    assert [lines[0]] + lines[1..] == lines;
  }

  lemma PrefixOfPrefix<X>(x: seq<X>, a: seq<X>, k: int)
    requires |a| <= |x| && x[..|a|] == a && 0 <= k <= |a|
    ensures x[..k] == a[..k]
  {
  }

  lemma FlattenFirst(gs: seq<seq<string>>, left: seq<string>)
    requires gs != []
    ensures Flatten(gs) + left == gs[0] + (Flatten(gs[1..]) + left)
  {
    AppendAssoc(gs[0], Flatten(gs[1..]), left);
  }

  lemma AppendAssoc<X>(a: seq<X>, b: seq<X>, c: seq<X>)
    ensures (a + b) + c == a + (b + c)
  {
  }

  lemma FlattenCons(g: seq<string>, gs: seq<seq<string>>, left: seq<string>)
    ensures Flatten([g] + gs) + left == g + (Flatten(gs) + left)
  {
    assert ([g] + gs)[1..] == gs;
    FlattenFirst([g] + gs, left);
  }

  /** The first group of a decomposition is a leading run of the input. */
  lemma FirstGroupIsPrefix(x: seq<string>, gs: seq<seq<string>>, left: seq<string>)
    requires gs != [] && Flatten(gs) + left == x
    ensures |gs[0]| <= |x| && x[..|gs[0]|] == gs[0]
    ensures x[|gs[0]|..] == Flatten(gs[1..]) + left
  {
    FlattenFirst(gs, left);
    SplitAppend(gs[0], Flatten(gs[1..]) + left);
  }

  lemma NeverBalancedAt(ls: seq<string>, k: int)
    requires NeverBalanced(ls) && 0 < k <= |ls|
    ensures !IsBalanced(Concat(ls[..k]))
  {
  }

  /** A line that leaves the buffer unbalanced keeps it never balanced. */
  lemma NeverBalancedPush(pending: seq<string>, l: string)
    requires NeverBalanced(pending) && !IsBalanced(Concat(pending + [l]))
    ensures NeverBalanced(pending + [l])
  {
    var p := pending + [l];
    forall k | 0 < k <= |p|
      ensures !IsBalanced(Concat(p[..k]))
    {
      if k == |p| {
        assert p[..k] == p;
      } else {
        assert p[..|pending|] == pending;
        PrefixOfPrefix(p, pending, k);
        NeverBalancedAt(pending, k);
      }
    }
  }

  /** Starting from lines that never balanced, the fold yields a
      decomposition of everything it has seen. */
  lemma {:induction false} GroupsFromDecomposes(lines: seq<string>, pending: seq<string>)
    requires NeverBalanced(pending)
    ensures Decomposes(pending + lines, GroupsFrom(lines, pending).0, GroupsFrom(lines, pending).1)
    decreases |lines|
  {
    if lines == [] {
      assert pending + lines == pending;
      var none: seq<string> := [];
      assert Flatten([]) + pending == pending;
    } else {
      var p := pending + [lines[0]];
      PushSplit(pending, lines);
      if IsBalanced(Concat(p)) {
        var none: seq<string> := [];
        GroupsFromDecomposes(lines[1..], none);
        var r := GroupsFrom(lines[1..], none);
        assert none + lines[1..] == lines[1..];
        FlattenCons(p, r.0, r.1);
        assert p[..|p| - 1] == pending;
        assert Minimal(p);
        var gs := [p] + r.0;
        forall i | 0 <= i < |gs|
          ensures Minimal(gs[i])
        {
          if i > 0 {
            assert gs[i] == r.0[i - 1];
          }
        }
      } else {
        NeverBalancedPush(pending, lines[0]);
        GroupsFromDecomposes(lines[1..], p);
      }
    }
  }

  /** The fold over a whole input is a decomposition of it. */
  lemma GroupsDecompose(lines: seq<string>)
    ensures Decomposes(lines, Groups(lines).0, Groups(lines).1)
  {
    var none: seq<string> := [];
    GroupsFromDecomposes(lines, none);
    assert none + lines == lines;
  }

  /** No shorter run of a group's leading lines balances. */
  lemma MinimalPrefix(g: seq<string>, k: int)
    requires Minimal(g) && 0 < k < |g|
    ensures !IsBalanced(Concat(g[..k]))
  {
    assert g[..|g| - 1][..k] == g[..k];
    NeverBalancedAt(g[..|g| - 1], k);
  }

  /** With no submission, every leading run of the input never balanced. */
  lemma NoGroups(x: seq<string>, left: seq<string>)
    requires Decomposes(x, [], left)
    ensures NeverBalanced(x)
  {
    assert Flatten([]) + left == left;
  }

  /** A group that starts a decomposition of `pending + lines` and whose
      leading lines never balanced is the first line at which the text
      balances: it ends exactly at `pending + [lines[0]]` when that is
      balanced, and cannot end before. */
  lemma FirstGroup(lines: seq<string>, pending: seq<string>, gs: seq<seq<string>>, left: seq<string>)
    requires NeverBalanced(pending) && lines != []
    requires Decomposes(pending + lines, gs, left)
    requires IsBalanced(Concat(pending + [lines[0]]))
    ensures gs != [] && gs[0] == pending + [lines[0]]
    ensures Flatten(gs[1..]) + left == lines[1..]
  {
    var p := pending + [lines[0]];
    var x := pending + lines;
    PushSplit(pending, lines);
    SplitAppend(p, lines[1..]);
    if gs == [] {
      NoGroups(x, left);
      NeverBalancedAt(x, |p|);
      assert false;
    }
    var g := gs[0];
    FirstGroupIsPrefix(x, gs, left);
    assert Minimal(g);
    if |g| <= |pending| {
      SplitAppend(pending, lines);
      PrefixOfPrefix(x, pending, |g|);
      assert false;
    }
    if |g| > |p| {
      PrefixOfPrefix(x, g, |p|);
      MinimalPrefix(g, |p|);
      assert false;
    }
  }

  /** Nothing but the fold decomposes the input from a buffer that never
      balanced: the grouping is determined by the balance of its prefixes
      alone. */
  lemma {:induction false} DecompositionUnique(lines: seq<string>, pending: seq<string>, gs: seq<seq<string>>, left: seq<string>)
    requires NeverBalanced(pending)
    requires Decomposes(pending + lines, gs, left)
    ensures (gs, left) == GroupsFrom(lines, pending)
    decreases |lines|
  {
    if lines == [] {
      assert pending + lines == pending;
      if gs != [] {
        var g := gs[0];
        FirstGroupIsPrefix(pending, gs, left);
        assert false;
      }
      assert Flatten(gs) + left == left;
    } else {
      var p := pending + [lines[0]];
      PushSplit(pending, lines);
      if IsBalanced(Concat(p)) {
        FirstGroup(lines, pending, gs, left);
        var none: seq<string> := [];
        assert none + lines[1..] == lines[1..];
        forall i | 0 <= i < |gs[1..]|
          ensures Minimal(gs[1..][i])
        {
          assert gs[1..][i] == gs[i + 1];
        }
        DecompositionUnique(lines[1..], none, gs[1..], left);
        assert [gs[0]] + gs[1..] == gs;
      } else {
        NeverBalancedPush(pending, lines[0]);
        DecompositionUnique(lines[1..], p, gs, left);
      }
    }
  }

  /** What the accumulator submits is the unique decomposition of the input
      into minimal balanced runs of lines, followed by a remainder that is
      never submitted. */
  lemma SubmittedIsUniqueDecomposition(lines: seq<string>, gs: seq<seq<string>>, left: seq<string>)
    ensures Decomposes(lines, gs, left) <==> (Submitted(lines) == Texts(gs) && (gs, left) == Groups(lines))
    ensures Decomposes(lines, gs, left) ==> Leftover(lines) == Concat(left)
  {
    var none: seq<string> := [];
    assert none + lines == lines;
    FeedIsGroups(lines, none);
    GroupsDecompose(lines);
    if Decomposes(lines, gs, left) {
      DecompositionUnique(lines, none, gs, left);
    }
  }

  /** A remainder left at the end of input is unbalanced, so it is never
      submitted. */
  lemma LeftoverUnbalanced(lines: seq<string>)
    ensures Groups(lines).1 != [] ==> !IsBalanced(Leftover(lines))
  {
    var none: seq<string> := [];
    GroupsDecompose(lines);
    FeedIsGroups(lines, none);
    var left := Groups(lines).1;
    if left != [] {
      assert left[..|left|] == left;
    }
  }

  /** `interpret_stream`: the loop over lines with `wholeline` as the
      buffer, collecting each balanced buffer as it is submitted. */
  method InterpretStream(lines: seq<string>) returns (submitted: seq<string>, wholeline: string)
    ensures submitted == Submitted(lines) && wholeline == Leftover(lines)
    ensures forall i :: 0 <= i < |submitted| ==> IsBalanced(submitted[i])
    ensures Concat(submitted) + wholeline == Concat(lines)
  {
    submitted := [];
    wholeline := "";
    var i := 0;
    while i < |lines|
      invariant 0 <= i <= |lines|
      invariant submitted + Feed(lines[i..], wholeline).0 == Submitted(lines)
      invariant Feed(lines[i..], wholeline).1 == Leftover(lines)
    {
      var rest := lines[i..];
      assert rest[0] == lines[i] && rest[1..] == lines[i + 1..];
      var whole := wholeline + lines[i];
      var balanced := MainIsBalanced(whole);
      if balanced {
        FeedSubmit(rest, wholeline);
        AppendAssoc(submitted, [whole], Feed(lines[i + 1..], "").0);
        submitted := submitted + [whole];
        wholeline := "";
      } else {
        FeedHold(rest, wholeline);
        wholeline := whole;
      }
      i := i + 1;
    }
    assert lines[i..] == [];
    assert submitted + [] == submitted;
  }

  /** Two lines of which only the pair balances are submitted together,
      as their plain concatenation. */
  lemma FeedJoinsTwo(a: string, b: string)
    requires !IsBalanced(a) && IsBalanced(a + b)
    ensures Submitted([a, b]) == [a + b] && Leftover([a, b]) == ""
  {
    var lines := [a, b];
    var none: seq<string> := [];
    assert "" + a == a;
    assert lines[1..] == [b];
    assert [b][1..] == none;
    FeedHold(lines, "");
    FeedSubmit([b], a);
    assert Feed(none, "") == (none, "");
    assert [a + b] + none == [a + b];
  }

  /** Lines are joined without a separator, so a token split over two
      lines is read as one: `(a` then `b)` is submitted as `(ab)`. */
  lemma LinesJoinWithoutSeparator()
    ensures Submitted(["(a", "b)"]) == ["(ab)"]
    ensures Leftover(["(a", "b)"]) == ""
  {
    var s0: string := [];
    ParenCountPush(s0, '(');
    var s1 := s0 + ['('];
    ParenCountPush(s1, 'a');
    var first := s1 + ['a'];
    assert first == "(a";
    ParenCountPush(first, 'b');
    ParenCountPush(first + ['b'], ')');
    var whole := first + ['b'] + [')'];
    assert whole == "(a" + "b)" == "(ab)";
    FeedJoinsTwo(first, "b)");
  }
}

=== FILE: ast.dfy ===
/** The value model of src/include/ast.h: one closed datatype for the node
    class hierarchy, with the three virtual members `type`, `getBool` and
    `getRepr` as functions over it. */
module Ast {
  import opened Chars
  import opened IntText

  /** `ASTNodeType`, plus a tag for the String variant the parser builds. */
  datatype NodeType = BoolType | IntegerType | DecimalType | SymbolType | ListType | LambdaType | StringType

  /** A program node and, equally, a runtime value. `Decimal` stands for a
      `float` and `Str` for the string node the parser builds from a quoted
      literal (its text with the outer quotes removed). */
  datatype Node =
    | Bool(flag: bool)
    | Integer(value: Int32)
    | Decimal(number: real)
    | Str(text: string)
    | Symbol(name: string)
    | List(children: seq<Node>)
    | Lambda(params: Node, body: Node)

  /** The printed forms the model leaves abstract: float formatting
      (`std::to_string(float)`), the string node's form, and the lambda's,
      which shows the object's address. */
  datatype Printer = Printer(decimal: real -> string, text: string -> string, lambda: (Node, Node) -> string)

  predicate SameVariant(a: Node, b: Node) {
    || (a.Bool? && b.Bool?)
    || (a.Integer? && b.Integer?)
    || (a.Decimal? && b.Decimal?)
    || (a.Str? && b.Str?)
    || (a.Symbol? && b.Symbol?)
    || (a.List? && b.List?)
    || (a.Lambda? && b.Lambda?)
  }

  /** `type()`: the tag of the constructing variant. */
  function Type(n: Node): (t: NodeType)
    ensures t == BoolType <==> n.Bool?
    ensures t == IntegerType <==> n.Integer?
    ensures t == DecimalType <==> n.Decimal?
    ensures t == StringType <==> n.Str?
    ensures t == SymbolType <==> n.Symbol?
    ensures t == ListType <==> n.List?
    ensures t == LambdaType <==> n.Lambda?
  {
    match n
    case Bool(_) => BoolType
    case Integer(_) => IntegerType
    case Decimal(_) => DecimalType
    case Str(_) => StringType
    case Symbol(_) => SymbolType
    case List(_) => ListType
    case Lambda(_, _) => LambdaType
  }

  /** Two nodes carry the same tag exactly when they were built by the
      same variant: the tag tells the variants apart. */
  lemma TypeIdentifiesVariant(a: Node, b: Node)
    ensures Type(a) == Type(b) <==> SameVariant(a, b)
  {
  }

  /** `getBool()`: truthiness. A node is false exactly when it is the false
      Bool, the integer or decimal zero, the empty string or the empty list;
      symbols and lambdas are always true. */
  function GetBool(n: Node): (b: bool)
    ensures !b <==> n in {Bool(false), Integer(0), Decimal(0.0), Str(""), List([])}
  {
    match n
    case Bool(flag) => flag
    case Integer(value) => value != 0
    case Decimal(number) => number != 0.0
    case Str(text) => |text| != 0
    case Symbol(_) => true
    case List(children) => |children| != 0
    case Lambda(_, _) => true
  }

  /** `getRepr()`. A Bool prints as "t" or "nil" and a symbol as its name.
      A list prints as "( ", then each child followed by one space, then
      ")" (see `ListReprJoinsChildren`). An integer prints as text `stoi`
      reads back to the same value. */
  function Repr(n: Node, p: Printer): (r: string)
    ensures n.List? ==> |r| >= 3 && r[..2] == "( " && r[|r| - 1] == ')'
    ensures n.List? ==> (r == "( )" <==> n.children == [])
    ensures n.Integer? ==> IsInt(r) && StoiValue(r) == n.value
    ensures n == Bool(true) ==> r == "t"
    ensures n == Bool(false) ==> r == "nil"
    ensures n.Symbol? ==> r == n.name
    decreases n
  {
    match n
    case Bool(flag) => if flag then "t" else "nil"
    case Integer(value) => IntToString(value)
    case Decimal(number) => p.decimal(number)
    case Str(text) => p.text(text)
    case Symbol(name) => name
    case List(children) => "( " + ReprSeq(children, p) + ")"
    case Lambda(params, body) => p.lambda(params, body)
  }

  /** The children of a list, each printed and followed by one space. */
  function ReprSeq(cs: seq<Node>, p: Printer): (r: string)
    ensures cs == [] <==> r == ""
    decreases cs
  {
    if cs == [] then "" else Repr(cs[0], p) + " " + ReprSeq(cs[1..], p)
  }

  /** The printed form of each child followed by one space. */
  function SpacedChildren(cs: seq<Node>, p: Printer): (ts: seq<string>)
    ensures |ts| == |cs|
    ensures forall i :: 0 <= i < |cs| ==> ts[i] == Repr(cs[i], p) + " "
  {
    seq(|cs|, i requires 0 <= i < |cs| => Repr(cs[i], p) + " ")
  }

  lemma {:induction false} ReprSeqIsConcat(cs: seq<Node>, p: Printer)
    ensures ReprSeq(cs, p) == Concat(SpacedChildren(cs, p))
    decreases |cs|
  {
    var ts := SpacedChildren(cs, p);
    if cs == [] {
      assert ts == [];
    } else {
      var tail := SpacedChildren(cs[1..], p);
      assert ts == [ts[0]] + tail;
      ReprSeqIsConcat(cs[1..], p);
      ConcatCons(ts[0], tail);
    }
  }

  /** A list prints as "( ", then the printed form of each child followed
      by exactly one space, in order, then ")". */
  lemma ListReprJoinsChildren(cs: seq<Node>, p: Printer)
    ensures Repr(List(cs), p) == "( " + Concat(SpacedChildren(cs, p)) + ")"
  {
    ReprSeqIsConcat(cs, p);
  }

  /** A Bool or a List is false exactly when it prints as "nil" or "( )". */
  lemma TruthAgreesWithRepr(n: Node, p: Printer)
    requires n.Bool? || n.List?
    ensures !GetBool(n) <==> Repr(n, p) == "nil" || Repr(n, p) == "( )"
  {
    if n.List? {
      var r := Repr(n, p);
      assert r[0] == '(';
      assert r != "nil";
    }
  }
}

=== FILE: balance.dfy ===
/** The parenthesis-balance gate: `Inpiler::is_balanced`
    (src/include/common.h:15-24) and its copy in src/main.cpp:13-22. A
    line counts as balanced when it closes at least as many parentheses as
    it opens; only the totals matter. */
module Balance {

  function Step(c: char): int {
    if c == '(' then 1 else if c == ')' then -1 else 0
  }

  /** The counter after the loop has read all of `s`. */
  function ParenCount(s: string): int {
    if s == [] then 0 else ParenCount(s[..|s| - 1]) + Step(s[|s| - 1])
  }

  /** `Inpiler::is_balanced`: the final counter is not positive. */
  predicate IsBalanced(s: string) {
    ParenCount(s) <= 0
  }

  /** The final counter is the number of `(` minus the number of `)`. */
  lemma {:induction false} ParenCountIsDifference(s: string)
    ensures ParenCount(s) == multiset(s)['('] as int - multiset(s)[')'] as int
    decreases |s|
  {
    if s != [] {
      var p := s[..|s| - 1];
      assert s == p + [s[|s| - 1]];
      ParenCountIsDifference(p);
    }
  }

  /** A text is balanced exactly when it has at most as many `(` as `)`. */
  lemma BalancedIffFewerOpens(s: string)
    ensures IsBalanced(s) <==> multiset(s)['('] <= multiset(s)[')']
  {
    ParenCountIsDifference(s);
  }

  /** The copy of `is_balanced` in src/main.cpp, written as its loop. It
      computes the same predicate as `Inpiler::is_balanced`. */
  method MainIsBalanced(line: string) returns (b: bool)
    ensures b == IsBalanced(line)
    ensures b <==> multiset(line)['('] <= multiset(line)[')']
  {
    var count := 0;
    var i := 0;
    while i < |line|
      invariant 0 <= i <= |line|
      invariant count == ParenCount(line[..i])
    {
      assert line[..i + 1][..i] == line[..i];
      if line[i] == '(' {
        count := count + 1;
      } else if line[i] == ')' {
        count := count - 1;
      }
      i := i + 1;
    }
    assert line[..i] == line;
    b := count <= 0;
    BalancedIffFewerOpens(line);
  }

  /** Characters other than parentheses never change the verdict, wherever
      they are inserted. */
  lemma OtherCharsIgnored(a: string, c: char, b: string)
    requires c != '(' && c != ')'
    ensures IsBalanced(a + [c] + b) == IsBalanced(a + b)
  {
    BalancedIffFewerOpens(a + [c] + b);
    BalancedIffFewerOpens(a + b);
  }

  /** Only the totals matter: any rearrangement of a string gets the same
      verdict. */
  lemma OrderIgnored(s: string, t: string)
    requires multiset(s) == multiset(t)
    ensures IsBalanced(s) == IsBalanced(t)
  {
    BalancedIffFewerOpens(s);
    BalancedIffFewerOpens(t);
  }

  /** The count is additive, so two balanced strings written one after the
      other are balanced. */
  lemma BalancedConcat(a: string, b: string)
    ensures ParenCount(a + b) == ParenCount(a) + ParenCount(b)
    ensures IsBalanced(a) && IsBalanced(b) ==> IsBalanced(a + b)
  {
    ParenCountIsDifference(a);
    ParenCountIsDifference(b);
    ParenCountIsDifference(a + b);
  }

  /** A string without parentheses is balanced. */
  lemma NoParensBalanced(s: string)
    requires '(' !in s && ')' !in s
    ensures IsBalanced(s)
  {
    BalancedIffFewerOpens(s);
    assert multiset(s)['('] == 0;
  }

  /** Reading one more character moves the counter by its step. */
  lemma ParenCountPush(p: string, c: char)
    ensures ParenCount(p + [c]) == ParenCount(p) + Step(c)
  {
    assert (p + [c])[..|p|] == p;
  }

  /** A close before an open still balances: `")("` is balanced. */
  lemma CloseThenOpenBalanced()
    ensures IsBalanced(")(")
  {
    var s0: string := [];
    ParenCountPush(s0, ')');
    ParenCountPush(s0 + [')'], '(');
    assert s0 + [')'] + ['('] == ")(";
  }

  lemma CountOfUnclosed()
    ensures ParenCount("(f x") == 1
  {
    var s0: string := [];
    ParenCountPush(s0, '(');
    var s1 := s0 + ['('];
    ParenCountPush(s1, 'f');
    var s2 := s1 + ['f'];
    ParenCountPush(s2, ' ');
    var s3 := s2 + [' '];
    ParenCountPush(s3, 'x');
    assert s3 + ['x'] == "(f x";
  }

  lemma CountOfClosed()
    ensures ParenCount("(f x))") == -1
  {
    var open := "(f x";
    CountOfUnclosed();
    ParenCountPush(open, ')');
    ParenCountPush(open + [')'], ')');
    assert open + [')'] + [')'] == "(f x))";
  }

  /** An unclosed form is not balanced; one extra `)` still is. */
  lemma UnclosedFormNotBalanced()
    ensures !IsBalanced("(f x")
    ensures IsBalanced("(f x))")
  {
    CountOfUnclosed();
    CountOfClosed();
  }
}

=== FILE: chars.dfy ===
/** Character classes shared by the lexer and the integer reader, in the
    "C" locale the program runs in. */
module Chars {

  /** `std::isspace` in the "C" locale: space, tab, newline, vertical tab,
      form feed and carriage return. Stream extraction (`ss >> token`) uses
      the same classification. */
  predicate IsSpace(c: char) {
    c == ' ' || c == '\t' || c == '\n' || c == '\U{000B}' || c == '\U{000C}' || c == '\r'
  }

  predicate IsDigit(c: char) {
    '0' <= c <= '9'
  }

  function DigitValue(c: char): (d: nat)
    requires IsDigit(c)
    ensures d < 10
  {
    c as int - '0' as int
  }

  function DigitChar(d: nat): (c: char)
    requires d < 10
    ensures IsDigit(c) && DigitValue(c) == d
  {
    ('0' as int + d) as char
  }

  predicate NoSpace(s: string) {
    forall i :: 0 <= i < |s| ==> !IsSpace(s[i])
  }

  predicate AllSpace(s: string) {
    forall i :: 0 <= i < |s| ==> IsSpace(s[i])
  }

  /** `s` without its leading whitespace. */
  function SkipSpace(s: string): (r: string)
    ensures |r| <= |s| && r == s[|s| - |r|..]
    ensures AllSpace(s[..|s| - |r|])
    ensures r != [] ==> !IsSpace(r[0])
  {
    if s != [] && IsSpace(s[0]) then SkipSpace(s[1..]) else s
  }

  /** `s` with every whitespace character deleted, order kept. */
  function RemoveSpace(s: string): (r: string)
    ensures NoSpace(r)
    ensures |r| <= |s|
  {
    if s == [] then []
    else (if IsSpace(s[0]) then [] else [s[0]]) + RemoveSpace(s[1..])
  }

  lemma {:induction false} RemoveSpaceAppend(a: string, b: string)
    ensures RemoveSpace(a + b) == RemoveSpace(a) + RemoveSpace(b)
    decreases |a|
  {
    if a == [] {
      assert a + b == b;
    } else {
      assert (a + b)[1..] == a[1..] + b;
      RemoveSpaceAppend(a[1..], b);
    }
  }

  /** The strings of `ss` written one after the other, no separator. */
  function Concat(ss: seq<string>): string {
    if ss == [] then "" else Concat(ss[..|ss| - 1]) + ss[|ss| - 1]
  }

  lemma {:induction false} ConcatAppend(a: seq<string>, b: seq<string>)
    ensures Concat(a + b) == Concat(a) + Concat(b)
    decreases |b|
  {
    if b == [] {
      assert a + b == a;
    } else {
      var b' := b[..|b| - 1];
      assert (a + b)[..|a + b| - 1] == a + b';
      ConcatAppend(a, b');
    }
  }

  lemma ConcatSingle(s: string)
    ensures Concat([s]) == s
  {
    assert [s][..0] == [];
  }

  lemma ConcatCons(s: string, ss: seq<string>)
    ensures Concat([s] + ss) == s + Concat(ss)
  {
    ConcatAppend([s], ss);
    ConcatSingle(s);
  }
}

=== FILE: errors.dfy ===
/** The single exception concept of the interpreter (`TodaluException`, a
    `std::runtime_error` carrying a message) and the failure-compatible
    result type that stands in for "returns a value or throws". */
module Errors {

  /** The reasons a front-end operation can throw. The four parse errors and
      the base-node error carry fixed messages; `Raised` stands for whatever
      the evaluator throws, message included. */
  datatype Error =
    | UnexpectedEof
    | UnexpectedClose
    | UnmatchedOpen
    | UnmatchedQuote
    | MultipleNodes
    | Raised(text: string)
  {
    /** The text `what()` reports for the exception. */
    function Message(): string {
      match this
      case UnexpectedEof => "Unexpected EOF while reading input"
      case UnexpectedClose => "Unexpected ')'"
      case UnmatchedOpen => "Unmatched '('"
      case UnmatchedQuote => "Unmatched '\"'"
      case MultipleNodes => "Contains more than one node at the base"
      case Raised(text) => text
    }
  }

  /** A value, or the exception that was thrown instead. */
  datatype Result<+T> = Success(value: T) | Failure(error: Error)

  /** Completion of an operation that returns nothing. */
  datatype Outcome = Pass | Fail(error: Error)
}

=== FILE: int_text.dfy ===
/** Integer tokens: the `is_int` test and the `std::stoi` conversion of the
    parser (src/ast.cpp), and the `std::to_string` rendering used by the
    Integer node's printed form (src/include/ast.h). */
module IntText {
  import opened Chars

  const MinInt: int := -0x8000_0000
  const MaxInt: int := 0x7FFF_FFFF

  /** The range of the C++ `int` an Integer node stores. */
  type Int32 = x: int | MinInt <= x <= MaxInt

  predicate AllDigits(s: string) {
    forall i :: 0 <= i < |s| ==> IsDigit(s[i])
  }

  /** Value of a run of decimal digits, most significant digit first. */
  function DigitsValue(s: string): nat
    requires AllDigits(s)
  {
    if s == [] then 0 else DigitsValue(s[..|s| - 1]) * 10 + DigitValue(s[|s| - 1])
  }

  /** Length of the longest run of digits at the start of `s`. */
  function DigitRun(s: string): (n: nat)
    ensures n <= |s| && AllDigits(s[..n])
    ensures n < |s| ==> !IsDigit(s[n])
  {
    if s != [] && IsDigit(s[0]) then 1 + DigitRun(s[1..]) else 0
  }

  /** What `std::stoi(str, &pos)` does: it returns a value and the number of
      characters consumed, or throws `invalid_argument` (no digits) or
      `out_of_range` (the value does not fit `long`, or then `int`). */
  datatype Conversion = Converted(value: Int32, pos: nat) | InvalidArgument | OutOfRange

  /** The text after the leading whitespace starts with a sign. */
  predicate HasSign(body: string) {
    body != [] && (body[0] == '+' || body[0] == '-')
  }

  /** The text after the optional sign. */
  function Unsigned(body: string): (u: string)
    ensures |u| <= |body|
  {
    if HasSign(body) then body[1..] else body
  }

  /** A magnitude with the sign `body` starts with. */
  function Signed(body: string, magnitude: nat): int {
    if HasSign(body) && body[0] == '-' then -(magnitude as int) else magnitude as int
  }

  /** `strtol` in base 10 followed by the `int` range check of `stoi`:
      leading whitespace is skipped, one optional sign is read, then the
      longest run of digits. */
  function Stoi(s: string): (c: Conversion)
    ensures c.Converted? ==> 0 < c.pos <= |s|
  {
    var body := SkipSpace(s);
    var digits := Unsigned(body);
    var n := DigitRun(digits);
    if n == 0 then InvalidArgument
    else
      var v := Signed(body, DigitsValue(digits[..n]));
      if v < MinInt || v > MaxInt then OutOfRange
      else Converted(v, |s| - |digits| + n)
  }

  /** `is_int` (src/ast.cpp:8-16): `stoi` succeeds and consumes the whole
      string. */
  predicate IsInt(s: string) {
    var c := Stoi(s);
    c.Converted? && c.pos == |s|
  }

  /** The value `std::stoi(t)` gives a token `is_int` accepted. */
  function StoiValue(s: string): Int32
    requires IsInt(s)
  {
    Stoi(s).value
  }

  /** An optionally signed, non-empty run of decimal digits. */
  predicate IsNumeral(s: string) {
    Unsigned(s) != [] && AllDigits(Unsigned(s))
  }

  function NumeralValue(s: string): int
    requires IsNumeral(s)
  {
    Signed(s, DigitsValue(Unsigned(s)))
  }

  lemma DigitRunAll(s: string)
    ensures DigitRun(s) == |s| <==> AllDigits(s)
  {
    var n := DigitRun(s);
    if n == |s| {
      assert s[..n] == s;
    }
  }

  /** `is_int` accepts exactly the strings that, after leading whitespace,
      are an optionally signed decimal numeral with nothing after it whose
      value fits `int`; the value read is the numeral's value. */
  lemma IsIntGrammar(s: string)
    ensures IsInt(s) <==> IsNumeral(SkipSpace(s)) && MinInt <= NumeralValue(SkipSpace(s)) <= MaxInt
    ensures IsInt(s) ==> StoiValue(s) == NumeralValue(SkipSpace(s))
  {
    var body := SkipSpace(s);
    var digits := Unsigned(body);
    var n := DigitRun(digits);
    var c := Stoi(s);
    DigitRunAll(digits);
    if n == 0 {
      assert c == InvalidArgument;
    } else {
      var v := Signed(body, DigitsValue(digits[..n]));
      assert c == if v < MinInt || v > MaxInt then OutOfRange else Converted(v, |s| - |digits| + n);
      if n == |digits| {
        assert digits[..n] == digits;
        assert NumeralValue(body) == v;
      }
    }
  }

  /** `std::to_string` of a non-negative value: its decimal digits with no
      leading zero. */
  function NatToString(n: nat): (r: string)
    ensures |r| > 0 && AllDigits(r) && DigitsValue(r) == n
    ensures |r| > 1 ==> r[0] != '0'
  {
    if n < 10 then [DigitChar(n)]
    else
      var prefix := NatToString(n / 10);
      var r := prefix + [DigitChar(n % 10)];
      assert r[..|r| - 1] == prefix;
      r
  }

  /** Digits hold no blank, parenthesis or quote. */
  lemma DigitsArePlain(r: string)
    requires AllDigits(r)
    ensures NoSpace(r) && '(' !in r && ')' !in r && '"' !in r
  {
  }

  /** `std::to_string(int)`: a minus sign exactly for negative values, then
      the digits of the magnitude with no leading zero. Reading it back
      with `stoi` gives the value again, and `is_int` accepts it. */
  function IntToString(i: Int32): (r: string)
    ensures IsInt(r) && StoiValue(r) == i
    ensures NoSpace(r) && '(' !in r && ')' !in r && '"' !in r
    ensures r[0] == '-' || IsDigit(r[0])
    ensures r[0] == '-' <==> i < 0
    ensures var m := if i < 0 then r[1..] else r;
            |m| > 0 && AllDigits(m) && (|m| > 1 ==> m[0] != '0')
  {
    var m := NatToString(if i < 0 then -(i as int) else i as int);
    var r := if i < 0 then "-" + m else m;
    IntToStringReads(i, m, r);
    IntToStringShape(i, m, r);
    r
  }

  lemma IntToStringShape(i: Int32, m: string, r: string)
    requires |m| > 0 && AllDigits(m)
    requires r == if i < 0 then "-" + m else m
    ensures r[0] == '-' <==> i < 0
    ensures (if i < 0 then r[1..] else r) == m
  {
    if i < 0 {
      assert r[1..] == m;
    } else {
      assert IsDigit(m[0]);
    }
  }

  lemma IntToStringReads(i: Int32, m: string, r: string)
    requires |m| > 0 && AllDigits(m) && DigitsValue(m) == (if i < 0 then -(i as int) else i as int)
    requires r == if i < 0 then "-" + m else m
    ensures IsInt(r) && StoiValue(r) == i
    ensures NoSpace(r) && '(' !in r && ')' !in r && '"' !in r
    ensures r[0] == '-' || IsDigit(r[0])
  {
    DigitsArePlain(m);
    assert r[0] == '-' || r[0] == m[0];
    assert !IsSpace(r[0]);
    assert SkipSpace(r) == r;
    assert Unsigned(r) == m by {
      if i < 0 {
        assert r[1..] == m;
      }
    }
    assert IsNumeral(r);
    assert NumeralValue(r) == i;
    IsIntGrammar(r);
  }

  /** A trailing non-digit makes the token a symbol: `stoi` stops early. */
  lemma TrailingLetterRejected()
    ensures !IsInt("12a")
  {
    var t := "12a";
    IsIntGrammar(t);
    assert SkipSpace(t) == t;
    assert !IsDigit(t[2]);
  }

  /** A string that starts with a letter or other non-numeric character is
      not an integer. */
  lemma NonNumericStartRejected(s: string)
    requires |s| > 0 && !IsSpace(s[0]) && !IsDigit(s[0]) && s[0] != '+' && s[0] != '-'
    ensures !IsInt(s)
  {
    IsIntGrammar(s);
    assert SkipSpace(s) == s;
    assert !AllDigits(s);
  }

  /** One more digit multiplies the value read so far by ten. */
  lemma DigitsValuePush(p: string, c: char)
    requires AllDigits(p) && IsDigit(c)
    ensures AllDigits(p + [c]) && DigitsValue(p + [c]) == DigitsValue(p) * 10 + DigitValue(c)
  {
    assert (p + [c])[..|p|] == p;
  }

  /** The digits of one past the largest `int`. */
  lemma DigitsOfTwoToThe31()
    ensures AllDigits("2147483648") && DigitsValue("2147483648") == 2147483648
  {
    var d0: string := [];
    DigitsValuePush(d0, '2');
    var d1 := d0 + ['2'];
    DigitsValuePush(d1, '1');
    var d2 := d1 + ['1'];
    DigitsValuePush(d2, '4');
    var d3 := d2 + ['4'];
    DigitsValuePush(d3, '7');
    var d4 := d3 + ['7'];
    DigitsValuePush(d4, '4');
    var d5 := d4 + ['4'];
    DigitsValuePush(d5, '8');
    var d6 := d5 + ['8'];
    DigitsValuePush(d6, '3');
    var d7 := d6 + ['3'];
    DigitsValuePush(d7, '6');
    var d8 := d7 + ['6'];
    DigitsValuePush(d8, '4');
    var d9 := d8 + ['4'];
    DigitsValuePush(d9, '8');
    var d10 := d9 + ['8'];
    assert d10 == "2147483648";
  }

  /** One past the largest `int` is rejected, although it is a numeral:
      `stoi` throws `out_of_range`. */
  lemma OverflowRejected()
    ensures !IsInt("2147483648")
  {
    var d := "2147483648";
    DigitsOfTwoToThe31();
    assert !IsSpace(d[0]);
    assert SkipSpace(d) == d;
    assert !HasSign(d);
    assert Unsigned(d) == d;
    DigitRunAll(d);
    assert DigitRun(d) == |d|;
    assert d[..|d|] == d;
    assert Stoi(d) == OutOfRange;
  }

  /** A numeral that starts the string and fits `int` is read in full. */
  lemma NumeralAccepted(s: string)
    requires IsNumeral(s) && MinInt <= NumeralValue(s) <= MaxInt
    ensures IsInt(s) && StoiValue(s) == NumeralValue(s)
  {
    assert SkipSpace(s) == s;
    IsIntGrammar(s);
  }

  /** The smallest `int` is read, sign included. */
  lemma MinIntAccepted()
    ensures IsInt("-2147483648") && StoiValue("-2147483648") == MinInt
  {
    var m := "-2147483648";
    DigitsOfTwoToThe31();
    assert m[1..] == "2147483648";
    assert NumeralValue(m) == MinInt;
    NumeralAccepted(m);
  }

  /** A plus sign is accepted. */
  lemma PlusSignAccepted()
    ensures IsInt("+7") && StoiValue("+7") == 7
  {
    var p := "+7";
    assert p[1..] == "7";
    assert DigitsValue("7"[..0]) == 0;
    assert NumeralValue(p) == 7;
    NumeralAccepted(p);
  }

  /** A sign with no digits is rejected: `stoi` throws
      `invalid_argument`. */
  lemma LoneSignRejected()
    ensures !IsInt("-")
  {
    var t := "-";
    assert !IsSpace(t[0]);
    assert SkipSpace(t) == t;
    assert HasSign(t);
    assert t[1..] == [];
    assert Unsigned(t) == [];
    assert DigitRun([]) == 0;
  }
}

=== FILE: interpret.dfy ===
/** `Interpreter::handle_line` (src/interpret.cpp:13-28) and the library
    loader `Inpiler::load_granthalaya` (src/common.cpp:7-19) that feeds it
    the balanced chunks of a text.

    The evaluator `eval_tree` is not part of this model: it is a parameter
    that takes the interpreter's environment and a node and returns the new
    environment with the value or the error it raised. Thrown
    `TodaluException`s are `Failure` results. */
module Interpret {
  import opened Errors
  import opened Chars
  import opened Ast
  import opened Lexer
  import opened Parser
  import opened ParseReference
  import opened ParseOrder
  import opened RoundTrip
  import opened Balance
  import opened Accumulator

  /** What a line handler is built from: the evaluator over an environment
      of type `S`, the decimal reader of the parser, and the printers of the
      node kinds whose form is not modelled. */
  datatype Interpreter<!S> = Interpreter(eval: (S, Node) -> (S, Result<Node>), fs: FloatSyntax, printer: Printer)

  /** The reply for an evaluated node: its printed form and a newline. */
  function Reply<S>(it: Interpreter<S>, v: (S, Result<Node>)): (r: (S, Result<string>))
    ensures r.0 == v.0
    ensures r.1.Success? <==> v.1.Success?
    ensures r.1.Success? ==> |r.1.value| > 0 && r.1.value[|r.1.value| - 1] == '\n'
    ensures r.1.Failure? ==> r.1.error == v.1.error
    ensures r.1.Success? ==> r.1.value == Repr(v.1.value, it.printer) + "\n"
  {
    if v.1.Failure? then (v.0, Failure(v.1.error)) else (v.0, Success(Repr(v.1.value, it.printer) + "\n"))
  }

  /** `handle_line`: a comment or blank line gives "" untouched; otherwise
      the line is tokenized and read, a read error is raised, more than one
      form at the base is an error, and the one form read is evaluated and
      printed. The reply is "" exactly for a comment line, and every other
      successful reply ends with a newline. */
  function HandleLine<S>(it: Interpreter<S>, s: S, line: string): (r: (S, Result<string>))
    ensures IsComment(line) ==> r == (s, Success(""))
    ensures r.1 == Success("") ==> IsComment(line)
    ensures r.1.Success? && r.1.value != "" ==> r.1.value[|r.1.value| - 1] == '\n'
    ensures !IsComment(line) && ParseTop(Tokenize(line), it.fs).Failure? ==>
              r == (s, Failure(ParseTop(Tokenize(line), it.fs).error))
    ensures !IsComment(line) && r.1.Success? ==>
              ParseTop(Tokenize(line), it.fs).Success? && |ParseTop(Tokenize(line), it.fs).value| == 1
  {
    if IsComment(line) then (s, Success(""))
    else HandleRead(it, s, ParseTop(Tokenize(line), it.fs))
  }

  /** What `handle_line` does with the outcome of reading a line of code: a
      read error is raised, no form replies "", more than one form is an
      error, and the one form read is evaluated and printed. */
  function HandleRead<S>(it: Interpreter<S>, s: S, ast: Result<seq<Node>>): (r: (S, Result<string>))
    ensures ast.Failure? ==> r == (s, Failure(ast.error))
    ensures r.1 == Success("") ==> ast == Success([])
    ensures r.1.Success? ==> ast.Success? && |ast.value| <= 1
    ensures r.1.Success? && r.1.value != "" ==> r.1.value[|r.1.value| - 1] == '\n'
    ensures ast == Success([]) ==> r == (s, Success(""))
    ensures ast.Success? && |ast.value| > 1 ==> r == (s, Failure(MultipleNodes))
    ensures ast.Success? && |ast.value| == 1 ==>
              var v := it.eval(s, ast.value[0]);
              && r.0 == v.0
              && (v.1.Success? ==> r.1 == Success(Repr(v.1.value, it.printer) + "\n"))
              && (v.1.Failure? ==> r.1 == Failure(v.1.error))
  {
    if ast.Failure? then (s, Failure(ast.error))
    else if |ast.value| == 0 then (s, Success(""))
    else if |ast.value| != 1 then (s, Failure(MultipleNodes))
    else Reply(it, it.eval(s, ast.value[0]))
  }

  // ---------------------------------------------------------------------
  // What reaches the evaluator

  /** Everything after the leading blanks of `a` is kept when text follows. */
  lemma {:induction false} SkipSpaceAppend(a: string, b: string)
    requires SkipSpace(a) != []
    ensures SkipSpace(a + b) == SkipSpace(a) + b
    decreases |a|
  {
    if IsSpace(a[0]) {
      assert (a + b)[1..] == a[1..] + b;
      SkipSpaceAppend(a[1..], b);
    }
  }

  lemma {:induction false} RemoveSpaceKeepsFirst(s: string)
    requires SkipSpace(s) != []
    ensures RemoveSpace(s) != []
    decreases |s|
  {
    if IsSpace(s[0]) {
      RemoveSpaceKeepsFirst(s[1..]);
    }
  }

  /** A line that is not a comment has at least one token. */
  lemma CodeHasTokens(line: string)
    requires !IsComment(line)
    ensures Tokenize(line) != []
  {
    RemoveSpaceKeepsFirst(line);
    var none: seq<string> := [];
    assert Concat(none) == [];
  }

  /** A line with code fails to read exactly when the flat scan of its
      tokens rejects it, and then `handle_line` raises the scan's error and
      leaves the environment alone; when the scan accepts, the only error
      that can come before evaluation is more than one form at the base. */
  lemma ReadErrorsPropagate<S>(it: Interpreter<S>, s: S, line: string)
    requires !IsComment(line)
    ensures Expected(Tokenize(line)).Rejected? ==>
              HandleLine(it, s, line) == (s, Failure(Expected(Tokenize(line)).error))
    ensures Expected(Tokenize(line)).Accepted? ==> ParseTop(Tokenize(line), it.fs).Success?
    ensures Expected(Tokenize(line)).Accepted? && ParseTop(Tokenize(line), it.fs).Success?
              && HandleLine(it, s, line).1.Failure? ==>
              HandleLine(it, s, line) == (s, Failure(MultipleNodes))
              || it.eval(s, ParseTop(Tokenize(line), it.fs).value[0]).1.Failure?
  {
    ParserMatchesScan(Tokenize(line), it.fs);
  }

  /** A line that reads as exactly one form is evaluated as that form: the
      environment is the one the evaluator leaves, and the reply is the
      value's printed form and a newline, or the evaluator's error. */
  lemma OneFormReplied<S>(it: Interpreter<S>, s: S, line: string, n: Node)
    requires !IsComment(line) && ParseTop(Tokenize(line), it.fs) == Success([n])
    ensures HandleLine(it, s, line).0 == it.eval(s, n).0
    ensures it.eval(s, n).1.Success? ==>
              HandleLine(it, s, line).1 == Success(Repr(it.eval(s, n).1.value, it.printer) + "\n")
    ensures it.eval(s, n).1.Failure? ==> HandleLine(it, s, line).1 == Failure(it.eval(s, n).1.error)
  {
  }

  /** Printing then handling: the printed form of a readable node that does
      not start with `#` is evaluated as that very node. */
  lemma EvaluatesPrinted<S>(it: Interpreter<S>, s: S, n: Node)
    requires Readable(n, it.fs) && !IsComment(Repr(n, it.printer))
    ensures HandleLine(it, s, Repr(n, it.printer)) == Reply(it, it.eval(s, n))
  {
    PrintThenRead(n, it.printer, it.fs);
  }

  /** Lists and integers never print as comments. */
  lemma ListsAndIntegersAreCode(n: Node, p: Printer)
    requires n.List? || n.Integer?
    ensures !IsComment(Repr(n, p))
  {
    var r := Repr(n, p);
    if n.List? {
      assert r[0] == r[..2][0] == '(';
    }
    assert r != [] && !IsSpace(r[0]) && r[0] != '#';
  }

  lemma TokenizeSpaced(a: string, b: string)
    ensures Tokenize(a + " " + b) == Tokenize(a) + Tokenize(b)
  {
    RewriteIsPadAll(a + " " + b);
    RewriteIsPadAll(a);
    RewriteIsPadAll(b);
    PadAllAppend(a + " ", b);
    PadAllAppend(a, " ");
    assert PadAll(" ") == " ";
    WordsSplit(PadAll(a), ' ', PadAll(b), []);
  }

  /** Text after a line with code keeps it code. */
  lemma CodeThenMore(a: string, b: string)
    requires !IsComment(a)
    ensures !IsComment(a + b)
  {
    SkipSpaceAppend(a, b);
  }

  lemma OneFormEach(ta: seq<string>, tb: seq<string>, a: Node, b: Node, fs: FloatSyntax)
    requires ParseTop(ta, fs) == Success([a]) && ParseTop(tb, fs) == Success([b])
    ensures ParseTop(ta + tb, fs) == Success([a, b])
  {
    ReadsInSourceOrder(ta, tb, fs);
    assert [a] + [b] == [a, b];
  }

  /** Two printed forms separated by a space read as both forms, in order. */
  lemma TwoFormsRead(a: Node, b: Node, p: Printer, fs: FloatSyntax)
    requires Readable(a, fs) && Readable(b, fs)
    ensures ParseTop(Tokenize(Repr(a, p) + " " + Repr(b, p)), fs) == Success([a, b])
  {
    var ra, rb := Repr(a, p), Repr(b, p);
    TokenizeSpaced(ra, rb);
    PrintThenRead(a, p, fs);
    PrintThenRead(b, p, fs);
    OneFormEach(Tokenize(ra), Tokenize(rb), a, b, fs);
  }

  /** A line with code that reads as more than one form is rejected with
      the environment untouched. */
  lemma ManyFormsRejected<S>(it: Interpreter<S>, s: S, line: string)
    requires !IsComment(line)
    requires ParseTop(Tokenize(line), it.fs).Success? && |ParseTop(Tokenize(line), it.fs).value| > 1
    ensures HandleLine(it, s, line) == (s, Failure(MultipleNodes))
  {
  }

  lemma SpacedAssoc(a: string, b: string)
    ensures a + " " + b == a + (" " + b)
  {
  }

  /** Two forms on one line are rejected before anything is evaluated. */
  lemma TwoFormsRejected<S>(it: Interpreter<S>, s: S, a: Node, b: Node)
    requires Readable(a, it.fs) && Readable(b, it.fs) && !IsComment(Repr(a, it.printer))
    ensures HandleLine(it, s, Repr(a, it.printer) + " " + Repr(b, it.printer)) == (s, Failure(MultipleNodes))
  {
    var ra, rb := Repr(a, it.printer), Repr(b, it.printer);
    var line := ra + " " + rb;
    CodeThenMore(ra, " " + rb);
    SpacedAssoc(ra, rb);
    assert !IsComment(line);
    TwoFormsRead(a, b, it.printer, it.fs);
    assert ParseTop(Tokenize(line), it.fs) == Success([a, b]);
    ManyFormsRejected(it, s, line);
  }

  // ---------------------------------------------------------------------
  // Loading the library

  /** The chunks handed to `handle_line` in order. A thrown error leaves
      `load_granthalaya` at once, so the chunks after a failing one are
      never handled; replies are discarded. */
  function HandleAll<S>(it: Interpreter<S>, s: S, chunks: seq<string>): (r: (S, Outcome))
    decreases |chunks|
  {
    if chunks == [] then (s, Pass)
    else
      var h := HandleLine(it, s, chunks[0]);
      if h.1.Failure? then (h.0, Fail(h.1.error)) else HandleAll(it, h.0, chunks[1..])
  }

  /** `load_granthalaya` as written: the line loop with the `wholeline`
      buffer, handling each buffer that balances. */
  function LoadLines<S>(it: Interpreter<S>, s: S, lines: seq<string>, wholeline: string): (S, Outcome)
    decreases |lines|
  {
    if lines == [] then (s, Pass)
    else
      var whole := wholeline + lines[0];
      if IsBalanced(whole) then
        var h := HandleLine(it, s, whole);
        if h.1.Failure? then (h.0, Fail(h.1.error)) else LoadLines(it, h.0, lines[1..], "")
      else
        LoadLines(it, s, lines[1..], whole)
  }

  /** `load_granthalaya` on the library's lines, starting with an empty
      buffer: it handles exactly the chunks the accumulator submits from an
      empty buffer, in order, and stops at the first error. */
  function LoadGranthalaya<S>(it: Interpreter<S>, s: S, lines: seq<string>): (r: (S, Outcome))
    ensures r == HandleAll(it, s, Submitted(lines))
  {
    LoadHandlesSubmitted(it, s, lines, "");
    LoadLines(it, s, lines, "")
  }

  /** Loading handles exactly the chunks the accumulator submits, in
      order; the unbalanced remainder is never handled. */
  lemma {:induction false} LoadHandlesSubmitted<S>(it: Interpreter<S>, s: S, lines: seq<string>, wholeline: string)
    ensures LoadLines(it, s, lines, wholeline) == HandleAll(it, s, Feed(lines, wholeline).0)
    decreases |lines|
  {
    if lines != [] {
      var whole := wholeline + lines[0];
      if IsBalanced(whole) {
        FeedSubmit(lines, wholeline);
        var h := HandleLine(it, s, whole);
        if h.1.Success? {
          LoadHandlesSubmitted(it, h.0, lines[1..], "");
          assert ([whole] + Feed(lines[1..], "").0)[1..] == Feed(lines[1..], "").0;
        }
      } else {
        FeedHold(lines, wholeline);
        LoadHandlesSubmitted(it, s, lines[1..], whole);
      }
    }
  }

  /** Handling two runs of chunks one after the other is handling the
      second from where the first left off, unless the first failed. */
  lemma {:induction false} HandleAllAppend<S>(it: Interpreter<S>, s: S, a: seq<string>, b: seq<string>)
    ensures HandleAll(it, s, a + b) ==
              var r := HandleAll(it, s, a);
              if r.1.Fail? then r else HandleAll(it, r.0, b)
    decreases |a|
  {
    if a == [] {
      assert a + b == b;
    } else {
      assert (a + b)[1..] == a[1..] + b;
      var h := HandleLine(it, s, a[0]);
      if h.1.Success? {
        HandleAllAppend(it, h.0, a[1..], b);
      }
    }
  }

  /** A library made of comment lines only loads without touching the
      environment. */
  lemma {:induction false} CommentsLeaveEnvironment<S>(it: Interpreter<S>, s: S, chunks: seq<string>)
    requires forall i :: 0 <= i < |chunks| ==> IsComment(chunks[i])
    ensures HandleAll(it, s, chunks) == (s, Pass)
    decreases |chunks|
  {
    if chunks != [] {
      CommentsLeaveEnvironment(it, s, chunks[1..]);
    }
  }
}

=== FILE: lexer.dfy ===
/** The lexical layer of src/common.cpp: the comment-line test and the
    tokenizer that pads parentheses with spaces and splits on whitespace. */
module Lexer {
  import opened Chars

  /** `is_comment` (src/common.cpp:21-28): scan past whitespace; the first
      other character decides. A line that is all whitespace counts as a
      comment. */
  function IsComment(line: string): (b: bool)
    ensures b <==> SkipSpace(line) == [] || SkipSpace(line)[0] == '#'
  {
    if line == [] then true
    else if IsSpace(line[0]) then IsComment(line[1..])
    else line[0] == '#'
  }

  /** `std::regex_replace(s, std::regex(c), sub)` for a pattern matching the
      single character `c`: every occurrence is replaced, the rest copied. */
  function ReplaceAll(s: string, c: char, sub: string): (r: string)
    ensures c !in sub ==> c !in r
    ensures forall x :: x != c && x !in sub ==> (x in r <==> x in s)
  {
    if s == [] then []
    else (if s[0] == c then sub else [s[0]]) + ReplaceAll(s[1..], c, sub)
  }

  /** The by-reference rewrite `tokenizer` applies to its argument before
      splitting: newlines to spaces, then `(` and `)` padded with spaces. */
  function Rewrite(s: string): string {
    ReplaceAll(ReplaceAll(ReplaceAll(s, '\n', " "), '(', " ( "), ')', " ) ")
  }

  /** The rewrite of one character. */
  function Pad(c: char): string {
    if c == '\n' then " " else if c == '(' then " ( " else if c == ')' then " ) " else [c]
  }

  /** The rewrite done one character at a time. */
  function PadAll(s: string): string {
    if s == [] then [] else Pad(s[0]) + PadAll(s[1..])
  }

  /** Splitting on whitespace as repeated `ss >> token` does, written as a
      scan that carries the word read so far. */
  function WordsFrom(s: string, word: string): seq<string>
    decreases |s|
  {
    if s == [] then (if word == [] then [] else [word])
    else if IsSpace(s[0]) then (if word == [] then [] else [word]) + WordsFrom(s[1..], [])
    else WordsFrom(s[1..], word + [s[0]])
  }

  function Words(s: string): seq<string> {
    WordsFrom(s, [])
  }

  /** A token that holds a parenthesis is exactly that parenthesis. */
  predicate Isolated(t: string) {
    t == "(" || t == ")" || ('(' !in t && ')' !in t)
  }

  predicate WellFormed(t: string) {
    t != [] && NoSpace(t)
  }

  /** What `tokenizer` leaves behind: the rewritten argument and the token
      list. */
  datatype Lexed = Lexed(text: string, tokens: seq<string>)

  /** `tokenizer` (src/common.cpp:30-41). The rewritten argument has no
      newline and every parenthesis in it has a space on each side; every
      token is non-empty and free of whitespace, a parenthesis is a token
      of its own, and the tokens written one after the other are the input
      with its whitespace removed. */
  function Tokenizer(s: string): (r: Lexed)
    ensures r.text == Rewrite(s)
    ensures '\n' !in r.text
    ensures forall i :: 0 <= i < |r.text| && (r.text[i] == '(' || r.text[i] == ')') ==>
              0 < i < |r.text| - 1 && r.text[i - 1] == ' ' && r.text[i + 1] == ' '
    ensures forall i :: 0 <= i < |r.tokens| ==> WellFormed(r.tokens[i]) && Isolated(r.tokens[i])
    ensures Concat(r.tokens) == RemoveSpace(s)
    ensures r.tokens == Words(r.text)
  {
    var text := Rewrite(s);
    RewriteIsPadAll(s);
    PadAllShape(s);
    WordsWellFormed(text, []);
    WordsConcat(text, []);
    PadAllKeepsNonSpace(s);
    WordsIsolated(s, []);
    Lexed(text, Words(text))
  }

  /** The tokens alone, as the line handler uses them. */
  function Tokenize(s: string): seq<string> {
    Tokenizer(s).tokens
  }

  // ---------------------------------------------------------------------
  // The rewrite

  lemma {:induction false} ReplaceAllAppend(a: string, b: string, c: char, sub: string)
    ensures ReplaceAll(a + b, c, sub) == ReplaceAll(a, c, sub) + ReplaceAll(b, c, sub)
    decreases |a|
  {
    if a == [] {
      assert a + b == b;
    } else {
      assert (a + b)[1..] == a[1..] + b;
      ReplaceAllAppend(a[1..], b, c, sub);
    }
  }

  lemma ReplaceOne(x: char, c: char, sub: string)
    ensures ReplaceAll([x], c, sub) == if x == c then sub else [x]
  {
    assert [x][1..] == [];
  }

  /** A pattern that does not occur leaves the text as it is. */
  lemma {:induction false} ReplaceAbsent(s: string, c: char, sub: string)
    requires c !in s
    ensures ReplaceAll(s, c, sub) == s
    decreases |s|
  {
    if s != [] {
      assert s == [s[0]] + s[1..];
      ReplaceAbsent(s[1..], c, sub);
    }
  }

  lemma RewriteOneChar(c: char)
    ensures Rewrite([c]) == Pad(c)
  {
    ReplaceOne(c, '\n', " ");
    if c == '\n' {
      ReplaceOne(' ', '(', " ( ");
      ReplaceOne(' ', ')', " ) ");
    } else {
      ReplaceOne(c, '(', " ( ");
      if c == '(' {
        ReplaceAbsent(" ( ", ')', " ) ");
      } else {
        ReplaceOne(c, ')', " ) ");
      }
    }
  }

  /** The three regex passes equal the one-pass, character-wise rewrite. */
  lemma {:induction false} RewriteIsPadAll(s: string)
    ensures Rewrite(s) == PadAll(s)
    decreases |s|
  {
    if s != [] {
      var c, t := s[0], s[1..];
      assert s == [c] + t;
      var r1 := ReplaceAll([c], '\n', " ");
      var r2 := ReplaceAll(r1, '(', " ( ");
      ReplaceAllAppend([c], t, '\n', " ");
      ReplaceAllAppend(r1, ReplaceAll(t, '\n', " "), '(', " ( ");
      ReplaceAllAppend(r2, ReplaceAll(ReplaceAll(t, '\n', " "), '(', " ( "), ')', " ) ");
      RewriteOneChar(c);
      RewriteIsPadAll(t);
    }
  }

  lemma {:induction false} PadAllAppend(a: string, b: string)
    ensures PadAll(a + b) == PadAll(a) + PadAll(b)
    decreases |a|
  {
    if a == [] {
      assert a + b == b;
    } else {
      assert (a + b)[1..] == a[1..] + b;
      PadAllAppend(a[1..], b);
    }
  }

  predicate ParensPadded(r: string) {
    forall i :: 0 <= i < |r| && (r[i] == '(' || r[i] == ')') ==>
      0 < i < |r| - 1 && r[i - 1] == ' ' && r[i + 1] == ' '
  }

  lemma {:induction false} PadAllShape(s: string)
    ensures '\n' !in PadAll(s)
    ensures ParensPadded(PadAll(s))
    decreases |s|
  {
    if s != [] {
      PadAllShape(s[1..]);
      var a, b := Pad(s[0]), PadAll(s[1..]);
      assert PadAll(s) == a + b;
      forall i | 0 <= i < |a + b| && ((a + b)[i] == '(' || (a + b)[i] == ')')
        ensures 0 < i < |a + b| - 1 && (a + b)[i - 1] == ' ' && (a + b)[i + 1] == ' '
      {
        if i >= |a| {
          assert (a + b)[i] == b[i - |a|];
        }
      }
    }
  }

  /** Padding one character adds only blanks. */
  lemma PadKeepsNonSpace(c: char)
    ensures RemoveSpace(Pad(c)) == RemoveSpace([c])
  {
    if c == '(' || c == ')' {
      var pad := Pad(c);
      assert pad == [' '] + [c] + [' '];
      RemoveSpaceAppend([' '] + [c], [' ']);
      RemoveSpaceAppend([' '], [c]);
    }
  }

  lemma {:induction false} PadAllKeepsNonSpace(s: string)
    ensures RemoveSpace(PadAll(s)) == RemoveSpace(s)
    decreases |s|
  {
    if s != [] {
      PadAllKeepsNonSpace(s[1..]);
      RemoveSpaceAppend(Pad(s[0]), PadAll(s[1..]));
      PadKeepsNonSpace(s[0]);
      assert s == [s[0]] + s[1..];
      RemoveSpaceAppend([s[0]], s[1..]);
    }
  }

  // ---------------------------------------------------------------------
  // Splitting on whitespace

  lemma {:induction false} WordsWellFormed(s: string, word: string)
    requires NoSpace(word)
    ensures forall i :: 0 <= i < |WordsFrom(s, word)| ==> WellFormed(WordsFrom(s, word)[i])
    decreases |s|
  {
    if s != [] {
      if IsSpace(s[0]) {
        WordsWellFormed(s[1..], []);
      } else {
        WordsWellFormed(s[1..], word + [s[0]]);
      }
    }
  }

  lemma {:induction false} WordsConcat(s: string, word: string)
    requires NoSpace(word)
    ensures Concat(WordsFrom(s, word)) == word + RemoveSpace(s)
    decreases |s|
  {
    if s == [] {
      if word != [] {
        ConcatSingle(word);
      }
      assert word + RemoveSpace(s) == word;
    } else if IsSpace(s[0]) {
      WordsConcat(s[1..], []);
      assert RemoveSpace(s) == RemoveSpace(s[1..]);
      if word != [] {
        ConcatCons(word, WordsFrom(s[1..], []));
      } else {
        assert WordsFrom(s, word) == WordsFrom(s[1..], []);
      }
    } else {
      WordsConcat(s[1..], word + [s[0]]);
      assert RemoveSpace(s) == [s[0]] + RemoveSpace(s[1..]);
      assert word + [s[0]] + RemoveSpace(s[1..]) == word + RemoveSpace(s);
    }
  }

  predicate AllIsolated(ts: seq<string>) {
    forall i :: 0 <= i < |ts| ==> Isolated(ts[i])
  }

  lemma AllIsolatedAppend(a: seq<string>, b: seq<string>)
    requires AllIsolated(a) && AllIsolated(b)
    ensures AllIsolated(a + b)
  {
    forall i | 0 <= i < |a + b|
      ensures Isolated((a + b)[i])
    {
      if i >= |a| {
        assert (a + b)[i] == b[i - |a|];
      }
    }
  }

  /** The word pending before a blank, as a list of at most one token. */
  function Pending(word: string): seq<string> {
    if word == [] then [] else [word]
  }

  /** A padded parenthesis ends the pending word and is a token alone. */
  lemma WordsOfPaddedParen(c: char, rest: string, word: string)
    requires c == '(' || c == ')'
    ensures WordsFrom(Pad(c) + rest, word) == Pending(word) + [[c]] + Words(rest)
  {
    var x := [' '] + [c] + [' '] + rest;
    assert Pad(c) + rest == x;
    var y := [c] + [' '] + rest;
    var z := [' '] + rest;
    assert x[1..] == y && y[1..] == z && z[1..] == rest;
    var none: string := [];
    assert none + [y[0]] == [c];
    assert WordsFrom(y, none) == WordsFrom(z, [c]);
  }

  /** A blank ends the pending word. */
  lemma WordsOfPaddedSpace(c: char, rest: string, word: string)
    requires c == '\n' || IsSpace(c)
    ensures WordsFrom(Pad(c) + rest, word) == Pending(word) + Words(rest)
  {
    assert Pad(c) + rest == [Pad(c)[0]] + rest;
    assert ([Pad(c)[0]] + rest)[1..] == rest;
  }

  /** Any other character extends the pending word. */
  lemma WordsOfPlainChar(c: char, rest: string, word: string)
    requires c != '(' && c != ')' && c != '\n' && !IsSpace(c)
    ensures WordsFrom(Pad(c) + rest, word) == WordsFrom(rest, word + [c])
  {
    assert Pad(c) + rest == [c] + rest;
    assert ([c] + rest)[1..] == rest;
  }

  /** Every token of the padded text is a lone parenthesis or holds none,
      given that the word pending when the scan resumes holds none. */
  lemma {:induction false} WordsIsolated(s: string, word: string)
    requires '(' !in word && ')' !in word
    ensures AllIsolated(WordsFrom(PadAll(s), word))
    decreases |s|
  {
    if s == [] {
      assert WordsFrom(PadAll(s), word) == Pending(word);
    } else {
      var c, rest := s[0], PadAll(s[1..]);
      assert PadAll(s) == Pad(c) + rest;
      if c == '(' || c == ')' {
        WordsOfPaddedParen(c, rest, word);
        WordsIsolated(s[1..], []);
        AllIsolatedAppend(Pending(word), [[c]]);
        AllIsolatedAppend(Pending(word) + [[c]], Words(rest));
      } else if c == '\n' || IsSpace(c) {
        WordsOfPaddedSpace(c, rest, word);
        WordsIsolated(s[1..], []);
        AllIsolatedAppend(Pending(word), Words(rest));
      } else {
        WordsOfPlainChar(c, rest, word);
        WordsIsolated(s[1..], word + [c]);
      }
    }
  }

  /** A whitespace character splits the scan into two independent halves. */
  lemma {:induction false} WordsSplit(a: string, c: char, b: string, word: string)
    requires IsSpace(c)
    ensures WordsFrom(a + [c] + b, word) == WordsFrom(a, word) + Words(b)
    decreases |a|
  {
    if a == [] {
      assert a + [c] + b == [c] + b;
      assert ([c] + b)[1..] == b;
    } else {
      assert (a + [c] + b)[1..] == a[1..] + [c] + b;
      if IsSpace(a[0]) {
        WordsSplit(a[1..], c, b, []);
      } else {
        WordsSplit(a[1..], c, b, word + [a[0]]);
      }
    }
  }

  /** A non-empty run without whitespace is read as one word. */
  lemma {:induction false} WordsOfRun(s: string, word: string)
    requires NoSpace(s)
    ensures WordsFrom(s, word) == if word + s == [] then [] else [word + s]
    decreases |s|
  {
    if s == [] {
      assert word + s == word;
    } else {
      assert word + s == (word + [s[0]]) + s[1..];
      WordsOfRun(s[1..], word + [s[0]]);
    }
  }

  /** A line whose first non-blank character is `#` is a comment even when
      code follows. */
  lemma LeadingHashIsComment()
    ensures IsComment(" # (def x 1)")
  {
    var line := " # (def x 1)";
    assert line[1..][0] == '#';
  }

  /** `#` after other text does not make a comment. */
  lemma LaterHashIsNotComment()
    ensures !IsComment("x # y")
  {
  }

  /** A blank line counts as a comment. */
  lemma BlankIsComment()
    ensures IsComment("") && IsComment(" \t")
  {
    var line := " \t";
    assert line[1..][1..] == [];
  }
}

=== FILE: parse_order.dfy ===
/** How `create_ast` composes: a successful read does not look past what it
    consumed, the nodes already pushed only ever get appended to, and two
    complete top-level token lists read one after the other give their
    nodes in source order. */
module ParseOrder {
  import opened Errors
  import opened Ast
  import opened Parser

  /** `r` with `acc` in front of its nodes. */
  function Prepend(acc: seq<Node>, r: Result<Parsed>): Result<Parsed> {
    if r.Failure? then r else Success((acc + r.value.0, r.value.1))
  }

  lemma PrependTwice(acc: seq<Node>, node: Node, r: Result<Parsed>)
    ensures Prepend(acc + [node], r) == Prepend(acc, Prepend([node], r))
  {
    if r.Success? {
      assert (acc + [node]) + r.value.0 == acc + ([node] + r.value.0);
    }
  }

  /** The reader's outcome does not depend on the nodes pushed before. */
  lemma {:induction false} AccumulatorShifts(tokens: seq<string>, closingAllowed: bool, acc: seq<Node>, fs: FloatSyntax)
    ensures ParseLoop(tokens, closingAllowed, acc, fs) == Prepend(acc, ParseLoop(tokens, closingAllowed, [], fs))
    decreases |tokens|
  {
    var none: seq<Node> := [];
    assert acc + none == acc;
    if tokens != [] {
      var t, rest := tokens[0], tokens[1..];
      if t == "(" {
        var inner := CreateAst(rest, true, fs);
        if inner.Success? {
          assert none + [List(inner.value.0)] == [List(inner.value.0)];
          var node := List(inner.value.0);
          AccumulatorShifts(inner.value.1, closingAllowed, acc + [node], fs);
          AccumulatorShifts(inner.value.1, closingAllowed, [node], fs);
          PrependTwice(acc, node, ParseLoop(inner.value.1, closingAllowed, [], fs));
        }
      } else if t == ")" {
      } else if StartsWithQuote(t) {
        var s := ReadString(t, rest);
        if s.Success? {
          var node := Str(Unquote(s.value.0));
          assert none + [node] == [node];
          AccumulatorShifts(s.value.1, closingAllowed, acc + [node], fs);
          AccumulatorShifts(s.value.1, closingAllowed, [node], fs);
          PrependTwice(acc, node, ParseLoop(s.value.1, closingAllowed, [], fs));
        }
      } else {
        var node := Atom(t, fs);
        assert none + [node] == [node];
        AccumulatorShifts(rest, closingAllowed, acc + [node], fs);
        AccumulatorShifts(rest, closingAllowed, [node], fs);
        PrependTwice(acc, node, ParseLoop(rest, closingAllowed, [], fs));
      }
    }
  }

  lemma {:induction false} AbsorbExtends(str: string, t: string, rest: seq<string>, more: seq<string>)
    requires Absorb(str, t, rest).Success?
    ensures var s := Absorb(str, t, rest);
            Absorb(str, t, rest + more) == Success((s.value.0, s.value.1 + more))
    decreases |rest|
  {
    if !EndsWithQuote(t) {
      assert (rest + more)[0] == rest[0] && (rest + more)[1..] == rest[1..] + more;
      AbsorbExtends(str + " " + rest[0], rest[0], rest[1..], more);
    }
  }

  /** A read that succeeded on `tokens` reads the same from `tokens + more`:
      a nested call stops at its `)` and leaves `more` untouched, a top-level
      loop carries on into `more`. */
  lemma {:induction false} LoopExtends(tokens: seq<string>, more: seq<string>, closingAllowed: bool, acc: seq<Node>, fs: FloatSyntax)
    requires ParseLoop(tokens, closingAllowed, acc, fs).Success?
    ensures var r := ParseLoop(tokens, closingAllowed, acc, fs);
            ParseLoop(tokens + more, closingAllowed, acc, fs)
              == if closingAllowed then Success((r.value.0, r.value.1 + more))
                 else ParseLoop(more, false, r.value.0, fs)
    decreases |tokens|, 0
  {
    if tokens == [] {
      assert tokens + more == more;
    } else {
      var t, rest := tokens[0], tokens[1..];
      assert (tokens + more)[0] == t && (tokens + more)[1..] == rest + more;
      if t == "(" {
        var inner := CreateAst(rest, true, fs);
        NestedExtends(rest, more, fs);
        LoopExtends(inner.value.1, more, closingAllowed, acc + [List(inner.value.0)], fs);
      } else if t == ")" {
      } else if StartsWithQuote(t) {
        var s := ReadString(t, rest);
        AbsorbExtends(t, t, rest, more);
        LoopExtends(s.value.1, more, closingAllowed, acc + [Str(Unquote(s.value.0))], fs);
      } else {
        LoopExtends(rest, more, closingAllowed, acc + [Atom(t, fs)], fs);
      }
    }
  }

  lemma {:induction false} NestedExtends(tokens: seq<string>, more: seq<string>, fs: FloatSyntax)
    requires CreateAst(tokens, true, fs).Success?
    ensures var r := CreateAst(tokens, true, fs);
            CreateAst(tokens + more, true, fs) == Success((r.value.0, r.value.1 + more))
    decreases |tokens|, 1
  {
    LoopExtends(tokens, more, true, [], fs);
  }

  /** Two lines that each read completely read, written one after the other,
      as the first line's nodes followed by the second's. */
  lemma ReadsInSourceOrder(a: seq<string>, b: seq<string>, fs: FloatSyntax)
    requires CreateAst(a, false, fs).Success? && CreateAst(b, false, fs).Success?
    ensures CreateAst(a + b, false, fs)
              == Success((CreateAst(a, false, fs).value.0 + CreateAst(b, false, fs).value.0, []))
  {
    var first := CreateAst(a, false, fs).value.0;
    LoopExtends(a, b, false, [], fs);
    AccumulatorShifts(b, false, first, fs);
  }
}

=== FILE: parse_reference.dfy ===
/** An independent account of when `create_ast` succeeds and which error it
    reports: a single left-to-right scan over the tokens that keeps a
    nesting depth, whether the last token opened a list, and whether a
    string literal is open. The scan never builds a tree, yet it agrees
    with the recursive reader on every token list. */
module ParseReference {
  import opened Errors
  import opened Ast
  import opened Parser

  datatype Verdict = Accepted | Rejected(error: Error)

  /** The flat scan. At the end of the tokens: an open literal is an
      unmatched quote; depth zero is success; an open list whose `(` was
      the last token is an unexpected end of input; any other open list is
      an unmatched `(`. A `)` at depth zero is unexpected. */
  function Scan(tokens: seq<string>, depth: nat, afterOpen: bool, inString: bool): Verdict
    decreases |tokens|
  {
    if tokens == [] then
      if inString then Rejected(UnmatchedQuote)
      else if depth == 0 then Accepted
      else if afterOpen then Rejected(UnexpectedEof)
      else Rejected(UnmatchedOpen)
    else
      var t, rest := tokens[0], tokens[1..];
      if inString then Scan(rest, depth, false, !EndsWithQuote(t))
      else if t == "(" then Scan(rest, depth + 1, true, false)
      else if t == ")" then
        if depth == 0 then Rejected(UnexpectedClose) else Scan(rest, depth - 1, false, false)
      else if StartsWithQuote(t) then Scan(rest, depth, false, !EndsWithQuote(t))
      else Scan(rest, depth, false, false)
  }

  /** The verdict for a whole line's tokens read at top level. */
  function Expected(tokens: seq<string>): Verdict {
    if tokens == [] then Rejected(UnexpectedEof) else Scan(tokens, 0, false, false)
  }

  function VerdictOf(r: Result<Parsed>): Verdict {
    if r.Success? then Accepted else Rejected(r.error)
  }

  /** The verdict of the whole line once a parse call at nesting depth
      `depth` has returned `r` to its caller. */
  function Continue(r: Result<Parsed>, depth: nat): Verdict {
    if r.Failure? then Rejected(r.error)
    else if depth == 0 then Accepted
    else Scan(r.value.1, depth - 1, false, false)
  }

  /** `create_ast` at top level succeeds exactly when the flat scan
      accepts, and otherwise throws the error the scan names. */
  lemma ParserMatchesScan(tokens: seq<string>, fs: FloatSyntax)
    ensures VerdictOf(CreateAst(tokens, false, fs)) == Expected(tokens)
  {
    if tokens != [] {
      LoopMatchesScan(tokens, 0, [], fs);
    }
  }

  lemma {:induction false} AbsorbMatchesScan(str: string, t: string, rest: seq<string>, depth: nat)
    ensures var s := Absorb(str, t, rest);
            Scan(rest, depth, false, !EndsWithQuote(t))
              == if s.Failure? then Rejected(UnmatchedQuote) else Scan(s.value.1, depth, false, false)
    decreases |rest|
  {
    if !EndsWithQuote(t) && rest != [] {
      AbsorbMatchesScan(str + " " + rest[0], rest[0], rest[1..], depth);
    }
  }

  lemma {:induction false} LoopMatchesScan(tokens: seq<string>, depth: nat, acc: seq<Node>, fs: FloatSyntax)
    ensures Scan(tokens, depth, false, false) == Continue(ParseLoop(tokens, depth > 0, acc, fs), depth)
    decreases |tokens|, 0
  {
    if tokens != [] {
      var t, rest := tokens[0], tokens[1..];
      if t == "(" {
        assert Scan(tokens, depth, false, false) == Scan(rest, depth + 1, true, false);
        NestedMatchesScan(rest, depth, fs);
        var inner := CreateAst(rest, true, fs);
        if inner.Success? {
          assert ParseLoop(tokens, depth > 0, acc, fs) == ParseLoop(inner.value.1, depth > 0, acc + [List(inner.value.0)], fs);
          LoopMatchesScan(inner.value.1, depth, acc + [List(inner.value.0)], fs);
        }
      } else if t == ")" {
      } else if StartsWithQuote(t) {
        assert Scan(tokens, depth, false, false) == Scan(rest, depth, false, !EndsWithQuote(t));
        AbsorbMatchesScan(t, t, rest, depth);
        var s := ReadString(t, rest);
        if s.Success? {
          assert ParseLoop(tokens, depth > 0, acc, fs) == ParseLoop(s.value.1, depth > 0, acc + [Str(Unquote(s.value.0))], fs);
          LoopMatchesScan(s.value.1, depth, acc + [Str(Unquote(s.value.0))], fs);
        }
      } else {
        assert Scan(tokens, depth, false, false) == Scan(rest, depth, false, false);
        assert ParseLoop(tokens, depth > 0, acc, fs) == ParseLoop(rest, depth > 0, acc + [Atom(t, fs)], fs);
        LoopMatchesScan(rest, depth, acc + [Atom(t, fs)], fs);
      }
    }
  }

  lemma {:induction false} NestedMatchesScan(tokens: seq<string>, depth: nat, fs: FloatSyntax)
    ensures Scan(tokens, depth + 1, true, false) == Continue(CreateAst(tokens, true, fs), depth + 1)
    decreases |tokens|, 1
  {
    if tokens != [] {
      assert Scan(tokens, depth + 1, true, false) == Scan(tokens, depth + 1, false, false);
      LoopMatchesScan(tokens, depth + 1, [], fs);
    }
  }

  /** A lone `(`: the nested call finds no tokens. */
  lemma LoneOpenIsEof(fs: FloatSyntax)
    ensures CreateAst(["("], false, fs) == Failure(UnexpectedEof)
    ensures CreateAst(["("], false, fs).error.Message() == "Unexpected EOF while reading input"
  {
    ParserMatchesScan(["("], fs);
  }

  /** A `)` at top level is rejected whatever follows. */
  lemma TopLevelCloseRejected(rest: seq<string>, fs: FloatSyntax)
    ensures CreateAst([")"] + rest, false, fs) == Failure(UnexpectedClose)
    ensures CreateAst([")"] + rest, false, fs).error.Message() == "Unexpected ')'"
  {
  }

  /** A list whose tokens run out before its `)`. */
  lemma UnclosedListRejected(fs: FloatSyntax)
    ensures CreateAst(["(", "(", ")"], false, fs) == Failure(UnmatchedOpen)
    ensures CreateAst(["(", "(", ")"], false, fs).error.Message() == "Unmatched '('"
  {
    var ts := ["(", "(", ")"];
    ParserMatchesScan(ts, fs);
    assert ts[1..] == ["(", ")"] && ts[1..][1..] == [")"] && ts[1..][1..][1..] == [];
  }

  /** A literal whose closing quote never comes, even inside a list. */
  lemma UnterminatedStringRejected(fs: FloatSyntax)
    ensures CreateAst(["(", "\"a", "b", ")"], false, fs) == Failure(UnmatchedQuote)
    ensures CreateAst(["(", "\"a", "b", ")"], false, fs).error.Message() == "Unmatched '\"'"
  {
    var ts := ["(", "\"a", "b", ")"];
    ParserMatchesScan(ts, fs);
    assert ts[1..] == ["\"a", "b", ")"];
    assert ts[1..][1..] == ["b", ")"];
    assert ts[1..][1..][1..] == [")"];
    assert ts[1..][1..][1..][1..] == [];
  }
}

=== FILE: parser.dfy ===
/** `create_ast` (src/ast.cpp:32-69): the recursive-descent reader from a
    token list to a list of nodes, with its helpers `is_int` (module
    IntText) and the string-literal rejoining. */
module Parser {
  import opened Errors
  import opened IntText
  import opened Ast

  /** `is_float` and `get_float` (src/ast.cpp:18-30) read a token with a
      stream extractor for `float`; the model keeps both abstract. */
  datatype FloatSyntax = FloatSyntax(accepts: string -> bool, read: string -> real)

  predicate StartsWithQuote(t: string) {
    |t| > 0 && t[0] == '"'
  }

  predicate EndsWithQuote(t: string) {
    |t| > 0 && t[|t| - 1] == '"'
  }

  /** Tokens joined with single spaces. */
  function JoinSpaced(ts: seq<string>): string
    requires |ts| > 0
  {
    if |ts| == 1 then ts[0] else JoinSpaced(ts[..|ts| - 1]) + " " + ts[|ts| - 1]
  }

  /** The inner loop of the string case: `str` is what has been read, `t`
      the last token read; keep taking tokens until one ends with a quote. */
  function Absorb(str: string, t: string, rest: seq<string>): Result<(string, seq<string>)>
    decreases |rest|
  {
    if EndsWithQuote(t) then Success((str, rest))
    else if rest == [] then Failure(UnmatchedQuote)
    else Absorb(str + " " + rest[0], rest[0], rest[1..])
  }

  /** Reading a string literal that starts with token `first`. It succeeds
      exactly when some token from `first` on ends with a quote; the text
      read is the tokens up to the first such one, joined with single
      spaces, and the tokens after it are left. Otherwise it fails with
      "Unmatched '\"'". */
  function ReadString(first: string, rest: seq<string>): (r: Result<(string, seq<string>)>)
    ensures r.Success? ==>
              var n := |rest| - |r.value.1|;
              && 0 <= n <= |rest|
              && r.value.1 == rest[n..]
              && r.value.0 == JoinSpaced([first] + rest[..n])
              && EndsWithQuote(([first] + rest)[n])
              && forall j :: 0 <= j < n ==> !EndsWithQuote(([first] + rest)[j])
    ensures r.Failure? ==>
              && r.error == UnmatchedQuote
              && forall j :: 0 <= j < |rest| + 1 ==> !EndsWithQuote(([first] + rest)[j])
  {
    AbsorbSucceeds([first], rest);
    AbsorbFails([first], rest);
    Absorb(first, first, rest)
  }

  /** Appending one token to the tokens taken joins it with a space. */
  lemma TakeOne(taken: seq<string>, rest: seq<string>)
    requires |taken| > 0 && rest != []
    ensures var taken' := taken + [rest[0]];
            && taken'[|taken'| - 1] == rest[0]
            && JoinSpaced(taken') == JoinSpaced(taken) + " " + rest[0]
            && taken' + rest[1..] == taken + rest
  {
    var taken' := taken + [rest[0]];
    assert taken'[..|taken'| - 1] == taken;
    assert [rest[0]] + rest[1..] == rest;
  }

  lemma ShiftSlices<X>(taken: seq<X>, rest: seq<X>, n: nat)
    requires rest != [] && n <= |rest| - 1
    ensures (taken + [rest[0]]) + rest[1..][..n] == taken + rest[..n + 1]
    ensures rest[1..][n..] == rest[n + 1..]
  {
    assert [rest[0]] + rest[1..][..n] == rest[..n + 1];
  }

  /** A successful absorb stops at the first token that ends in a quote,
      after joining the tokens up to it. */
  lemma {:induction false} AbsorbSucceeds(taken: seq<string>, rest: seq<string>)
    requires |taken| > 0
    requires forall j :: 0 <= j < |taken| - 1 ==> !EndsWithQuote(taken[j])
    ensures var r := Absorb(JoinSpaced(taken), taken[|taken| - 1], rest);
            r.Success? ==>
              var n := |rest| - |r.value.1|;
              && 0 <= n <= |rest|
              && r.value.1 == rest[n..]
              && r.value.0 == JoinSpaced(taken + rest[..n])
              && EndsWithQuote((taken + rest)[|taken| - 1 + n])
              && forall j :: 0 <= j < |taken| - 1 + n ==> !EndsWithQuote((taken + rest)[j])
    decreases |rest|
  {
    var t := taken[|taken| - 1];
    if EndsWithQuote(t) {
      assert rest[..0] == [] && taken + rest[..0] == taken;
    } else if rest != [] {
      var taken' := taken + [rest[0]];
      TakeOne(taken, rest);
      AbsorbSucceeds(taken', rest[1..]);
      var r := Absorb(JoinSpaced(taken'), rest[0], rest[1..]);
      if r.Success? {
        var n := |rest[1..]| - |r.value.1|;
        ShiftSlices(taken, rest, n);
      }
    }
  }

  /** A failed absorb found no token ending in a quote. */
  lemma {:induction false} AbsorbFails(taken: seq<string>, rest: seq<string>)
    requires |taken| > 0
    requires forall j :: 0 <= j < |taken| - 1 ==> !EndsWithQuote(taken[j])
    ensures var r := Absorb(JoinSpaced(taken), taken[|taken| - 1], rest);
            r.Failure? ==>
              && r.error == UnmatchedQuote
              && forall j :: 0 <= j < |taken + rest| ==> !EndsWithQuote((taken + rest)[j])
    decreases |rest|
  {
    var t := taken[|taken| - 1];
    if EndsWithQuote(t) {
    } else if rest == [] {
      assert taken + rest == taken;
    } else {
      var taken' := taken + [rest[0]];
      TakeOne(taken, rest);
      AbsorbFails(taken', rest[1..]);
    }
  }

  /** `str.substr(1, str.length() - 2)`. For a lone `"` the length
      argument wraps around as an unsigned `size_t`, `substr` then reads to
      the end, and the text is empty. A literal read from a token that both
      starts and ends with a quote is the text between the outer quotes. */
  function Unquote(str: string): (text: string)
    requires |str| >= 1
    ensures |str| >= 2 && StartsWithQuote(str) && EndsWithQuote(str) ==> "\"" + text + "\"" == str
    ensures |str| == 1 ==> text == ""
  {
    if |str| >= 2 then str[1..|str| - 1] else str[1..]
  }

  /** A token that is not a parenthesis and does not open a string: an
      integer if `is_int` accepts it, else a decimal if `is_float` does,
      else a symbol spelled as the token. */
  function Atom(t: string, fs: FloatSyntax): Node {
    if IsInt(t) then Integer(StoiValue(t))
    else if fs.accepts(t) then Decimal(fs.read(t))
    else Symbol(t)
  }

  /** `rest` is what is left of `tokens` after some tokens were taken from
      the front. */
  predicate SuffixOf(rest: seq<string>, tokens: seq<string>) {
    |rest| <= |tokens| && rest == tokens[|tokens| - |rest|..]
  }

  /** `rest` is left after a `)` was the last token taken from `tokens`. */
  predicate AfterClose(rest: seq<string>, tokens: seq<string>) {
    |rest| < |tokens| && rest == tokens[|tokens| - |rest|..] && tokens[|tokens| - |rest| - 1] == ")"
  }

  predicate ParseError(e: Error) {
    e in {UnexpectedEof, UnexpectedClose, UnmatchedOpen, UnmatchedQuote}
  }

  lemma SuffixTransitive(a: seq<string>, b: seq<string>, c: seq<string>)
    requires SuffixOf(a, b) && SuffixOf(b, c)
    ensures SuffixOf(a, c)
  {
    assert c[|c| - |b|..][|b| - |a|..] == c[|c| - |a|..];
  }

  lemma AfterCloseExtends(b: seq<string>, c: seq<string>)
    requires SuffixOf(b, c)
    ensures forall a :: AfterClose(a, b) ==> AfterClose(a, c)
  {
    forall a | AfterClose(a, b)
      ensures AfterClose(a, c)
    {
      assert c[|c| - |b|..][|b| - |a|..] == c[|c| - |a|..];
      assert c[|c| - |b|..][|b| - |a| - 1] == c[|c| - |a| - 1];
    }
  }

  /** What a successful call returns: the nodes read and the tokens left. */
  type Parsed = (seq<Node>, seq<string>)

  /** `create_ast(tokens, closing_paren_allow)`. Top level
      (`closingAllowed` false) reads every token or fails; a nested call
      reads up to and including the `)` that closes its list and leaves
      the tokens after it. An empty list of tokens on entry fails with
      "Unexpected EOF while reading input". */
  function CreateAst(tokens: seq<string>, closingAllowed: bool, fs: FloatSyntax): (r: Result<Parsed>)
    ensures tokens == [] ==> r == Failure(UnexpectedEof)
    ensures r.Success? && closingAllowed ==> AfterClose(r.value.1, tokens)
    ensures r.Success? && !closingAllowed ==> r.value.1 == [] && |r.value.0| >= 1
    ensures r.Failure? ==> ParseError(r.error) && (closingAllowed ==> r.error != UnexpectedClose)
    decreases |tokens|, 1
  {
    if tokens == [] then Failure(UnexpectedEof) else ParseLoop(tokens, closingAllowed, [], fs)
  }

  /** The `while (tokens.size())` loop of `create_ast`, with `acc` the
      nodes pushed so far. The nodes already read stay in front, in order. */
  function ParseLoop(tokens: seq<string>, closingAllowed: bool, acc: seq<Node>, fs: FloatSyntax): (r: Result<Parsed>)
    ensures r.Success? && closingAllowed ==> AfterClose(r.value.1, tokens)
    ensures r.Success? && !closingAllowed ==> r.value.1 == []
    ensures r.Success? ==> acc <= r.value.0
    ensures r.Success? && !closingAllowed && tokens != [] ==> |acc| < |r.value.0|
    ensures r.Failure? ==> ParseError(r.error) && (closingAllowed ==> r.error != UnexpectedClose)
    decreases |tokens|, 0
  {
    if tokens == [] then
      if closingAllowed then Failure(UnmatchedOpen) else Success((acc, []))
    else
      var t, rest := tokens[0], tokens[1..];
      assert SuffixOf(rest, tokens);
      if t == "(" then
        var inner := CreateAst(rest, true, fs);
        if inner.Failure? then Failure(inner.error)
        else
          AfterCloseExtends(rest, tokens);
          AfterCloseExtends(inner.value.1, tokens);
          ParseLoop(inner.value.1, closingAllowed, acc + [List(inner.value.0)], fs)
      else if t == ")" then
        if !closingAllowed then Failure(UnexpectedClose) else Success((acc, rest))
      else if StartsWithQuote(t) then
        var s := ReadString(t, rest);
        if s.Failure? then Failure(s.error)
        else
          SuffixTransitive(s.value.1, rest, tokens);
          AfterCloseExtends(s.value.1, tokens);
          ParseLoop(s.value.1, closingAllowed, acc + [Str(Unquote(s.value.0))], fs)
      else
        AfterCloseExtends(rest, tokens);
        ParseLoop(rest, closingAllowed, acc + [Atom(t, fs)], fs)
  }

  /** The whole list of tokens read at top level, as `handle_line` calls
      it. */
  function ParseTop(tokens: seq<string>, fs: FloatSyntax): (r: Result<seq<Node>>)
    ensures r.Success? ==> |r.value| >= 1
    ensures r.Failure? ==> ParseError(r.error)
  {
    var r := CreateAst(tokens, false, fs);
    if r.Failure? then Failure(r.error) else Success(r.value.0)
  }

  /** The node a plain token becomes: an integer when `is_int` accepts it,
      whatever `is_float` says; otherwise a decimal when `is_float` accepts
      it; otherwise a symbol spelled as the token. */
  lemma ReadsOneAtom(t: string, fs: FloatSyntax)
    requires t != "(" && t != ")" && !StartsWithQuote(t)
    ensures IsInt(t) ==> CreateAst([t], false, fs) == Success(([Integer(StoiValue(t))], []))
    ensures !IsInt(t) && fs.accepts(t) ==> CreateAst([t], false, fs) == Success(([Decimal(fs.read(t))], []))
    ensures !IsInt(t) && !fs.accepts(t) ==> CreateAst([t], false, fs) == Success(([Symbol(t)], []))
  {
    assert [t][1..] == [];
    var node := Atom(t, fs);
    assert CreateAst([t], false, fs) == ParseLoop([t], false, [], fs);
    assert ParseLoop([t], false, [], fs) == ParseLoop([t][1..], false, [] + [node], fs);
    assert [] + [node] == [node];
  }

  /** A run of tokens whose first token opens a string literal and whose
      last token is the first to close it reads as one string node: the
      tokens joined with single spaces, without the outer quotes. The quote
      test comes before `is_int` and `is_float`, so this holds whatever
      `is_float` accepts. */
  lemma ReadsStringLiteral(ts: seq<string>, fs: FloatSyntax)
    requires |ts| > 0 && StartsWithQuote(ts[0]) && EndsWithQuote(ts[|ts| - 1])
    requires forall j :: 0 <= j < |ts| - 1 ==> !EndsWithQuote(ts[j])
    ensures CreateAst(ts, false, fs) == Success(([Str(Unquote(JoinSpaced(ts)))], []))
  {
    var first, rest := ts[0], ts[1..];
    assert [first] + rest == ts;
    var r := ReadString(first, rest);
    assert EndsWithQuote(([first] + rest)[|rest|]);
    assert r.Success?;
    var n := |rest| - |r.value.1|;
    assert EndsWithQuote(ts[n]);
    assert n == |rest|;
    assert rest[..n] == rest;
    assert r.value == (JoinSpaced(ts), []);
    var node := Str(Unquote(JoinSpaced(ts)));
    assert CreateAst(ts, false, fs) == ParseLoop(ts, false, [], fs);
    assert ts[0] == first && ts[1..] == rest;
    assert ParseLoop(ts, false, [], fs) == ParseLoop(r.value.1, false, [] + [node], fs);
    assert [] + [node] == [node];
  }

  /** A quoted numeral is a string, not an integer. */
  lemma QuotedNumeralIsString(fs: FloatSyntax)
    ensures CreateAst(["\"1\""], false, fs) == Success(([Str("1")], []))
  {
    var t := "\"1\"";
    ReadsStringLiteral([t], fs);
    assert JoinSpaced([t]) == t;
    assert Unquote(t) == t[1..2] == "1";
  }

  /** A literal split by the tokenizer at a blank is joined back with one
      space. */
  lemma SplitLiteralRejoined(fs: FloatSyntax)
    ensures CreateAst(["\"a", "b\""], false, fs) == Success(([Str("a b")], []))
  {
    var ts := ["\"a", "b\""];
    ReadsStringLiteral(ts, fs);
    assert ts[..1] == ["\"a"];
    assert JoinSpaced(ts) == "\"a b\"";
    assert Unquote("\"a b\"") == "a b";
  }
}

=== FILE: round_trip.dfy ===
/** Printing then reading: for nodes built from integers, plain symbols and
    lists of them, tokenizing the printed form (`getRepr`) and reading it
    with `create_ast` gives back exactly the node printed. */
module RoundTrip {
  import opened Errors
  import opened Chars
  import opened IntText
  import opened Ast
  import opened Lexer
  import opened Parser

  /** A symbol name the reader gives back as that same symbol: one token
      that is neither a parenthesis, nor a string opener, nor an integer,
      nor a decimal. */
  predicate SymbolToken(name: string, fs: FloatSyntax) {
    && name != []
    && NoSpace(name)
    && '(' !in name && ')' !in name && '\n' !in name
    && !StartsWithQuote(name)
    && !IsInt(name)
    && !fs.accepts(name)
  }

  /** Nodes made of integers, such symbols and lists of them. */
  predicate Readable(n: Node, fs: FloatSyntax)
    decreases n
  {
    match n
    case Integer(_) => true
    case Symbol(name) => SymbolToken(name, fs)
    case List(cs) => AllReadable(cs, fs)
    case _ => false
  }

  predicate AllReadable(cs: seq<Node>, fs: FloatSyntax)
    decreases cs
  {
    forall i :: 0 <= i < |cs| ==> Readable(cs[i], fs)
  }

  /** The tokens a readable node prints as. */
  function Toks(n: Node): seq<string>
    decreases n
  {
    match n
    case Integer(v) => [IntToString(v)]
    case Symbol(name) => [name]
    case List(cs) => ["("] + ToksSeq(cs) + [")"]
    case _ => []
  }

  function ToksSeq(cs: seq<Node>): seq<string>
    decreases cs
  {
    if cs == [] then [] else Toks(cs[0]) + ToksSeq(cs[1..])
  }

  lemma {:induction false} PadAllPlain(s: string)
    requires '(' !in s && ')' !in s && '\n' !in s
    ensures PadAll(s) == s
    decreases |s|
  {
    if s != [] {
      assert s == [s[0]] + s[1..];
      PadAllPlain(s[1..]);
    }
  }

  lemma WordOfPlain(w: string)
    requires w != [] && NoSpace(w) && '(' !in w && ')' !in w && '\n' !in w
    ensures Words(PadAll(w)) == [w]
  {
    PadAllPlain(w);
    WordsOfRun(w, []);
    assert [] + w == w;
  }

  lemma PadOpening()
    ensures PadAll("( ") == " ( " + " "
  {
    var open := "( ";
    assert open == ['('] + [' '];
    PadAllAppend(['('], [' ']);
  }

  lemma PadClosing()
    ensures PadAll(")") == " ) "
  {
  }

  lemma PadListFrame(inner: string)
    ensures PadAll("( " + inner + ")") == " ( " + " " + PadAll(inner) + " ) "
  {
    PadAllAppend("( " + inner, ")");
    PadAllAppend("( ", inner);
    PadOpening();
    PadClosing();
  }

  lemma WordsListFrame(body: string)
    ensures Words(" ( " + " " + body + " ) ") == ["("] + Words(body) + [")"]
  {
    var none: string := [];
    var x := " ( " + " " + body + " ) ";
    var tail := ")" + [' '];
    var r2 := body + [' '] + tail;
    var r1b := none + [' '] + r2;
    var r1 := "(" + [' '] + r1b;
    assert x == none + [' '] + r1;
    WordsSplit(none, ' ', r1, []);
    assert Words(x) == Words(r1);
    WordsSplit("(", ' ', r1b, []);
    WordsOfRun("(", []);
    assert none + "(" == "(";
    assert Words(r1) == ["("] + Words(r1b);
    WordsSplit(none, ' ', r2, []);
    assert Words(r1b) == Words(r2);
    WordsSplit(body, ' ', tail, []);
    assert Words(r2) == Words(body) + Words(tail);
    assert tail == ")" + [' '] + none;
    WordsSplit(")", ' ', none, []);
    WordsOfRun(")", []);
    assert none + ")" == ")";
    assert Words(none) == [];
    assert Words(tail) == [")"];
  }

  /** The printed form of a readable node splits into its tokens. */
  lemma {:induction false} LexRepr(n: Node, p: Printer, fs: FloatSyntax)
    requires Readable(n, fs)
    ensures Words(PadAll(Repr(n, p))) == Toks(n)
    decreases n
  {
    match n
    case Integer(v) =>
      WordOfPlain(IntToString(v));
    case Symbol(name) =>
      WordOfPlain(name);
    case List(cs) =>
      LexReprSeq(cs, p, fs);
      PadListFrame(ReprSeq(cs, p));
      WordsListFrame(PadAll(ReprSeq(cs, p)));
    case _ =>
  }

  lemma {:induction false} LexReprSeq(cs: seq<Node>, p: Printer, fs: FloatSyntax)
    requires AllReadable(cs, fs)
    ensures Words(PadAll(ReprSeq(cs, p))) == ToksSeq(cs)
    decreases cs
  {
    if cs != [] {
      LexRepr(cs[0], p, fs);
      LexReprSeq(cs[1..], p, fs);
      var head, tail := Repr(cs[0], p), ReprSeq(cs[1..], p);
      PadAllAppend(head + " ", tail);
      PadAllAppend(head, " ");
      assert PadAll(" ") == " ";
      WordsSplit(PadAll(head), ' ', PadAll(tail), []);
    }
  }

  /** One token that is not a parenthesis and opens no string pushes its
      atom. */
  lemma ReadAtom(w: string, rest: seq<string>, closingAllowed: bool, acc: seq<Node>, fs: FloatSyntax)
    requires w != "(" && w != ")" && !StartsWithQuote(w)
    ensures ParseLoop([w] + rest, closingAllowed, acc, fs) == ParseLoop(rest, closingAllowed, acc + [Atom(w, fs)], fs)
  {
    assert ([w] + rest)[0] == w && ([w] + rest)[1..] == rest;
  }

  lemma ReadList(cs: seq<Node>, rest: seq<string>, closingAllowed: bool, acc: seq<Node>, fs: FloatSyntax)
    requires ParseLoop(ToksSeq(cs) + [")"] + rest, true, [], fs) == Success((cs, rest))
    ensures ParseLoop(["("] + ToksSeq(cs) + [")"] + rest, closingAllowed, acc, fs)
              == ParseLoop(rest, closingAllowed, acc + [List(cs)], fs)
  {
    var inside := ToksSeq(cs) + [")"] + rest;
    assert ["("] + ToksSeq(cs) + [")"] + rest == ["("] + inside;
    assert (["("] + inside)[0] == "(" && (["("] + inside)[1..] == inside;
  }

  /** Reading the tokens of a readable node pushes exactly that node and
      leaves whatever follows. */
  lemma {:induction false} ReadNode(n: Node, rest: seq<string>, closingAllowed: bool, acc: seq<Node>, fs: FloatSyntax)
    requires Readable(n, fs)
    ensures ParseLoop(Toks(n) + rest, closingAllowed, acc, fs) == ParseLoop(rest, closingAllowed, acc + [n], fs)
    decreases n
  {
    match n
    case Integer(v) =>
      var w := IntToString(v);
      assert w[0] in w;
      ReadAtom(w, rest, closingAllowed, acc, fs);
    case Symbol(name) =>
      assert name[0] in name;
      ReadAtom(name, rest, closingAllowed, acc, fs);
    case List(cs) =>
      ReadSeq(cs, [")"] + rest, true, [], fs);
      assert ToksSeq(cs) + ([")"] + rest) == ToksSeq(cs) + [")"] + rest;
      assert [] + cs == cs;
      ReadList(cs, rest, closingAllowed, acc, fs);
      assert Toks(n) + rest == ["("] + ToksSeq(cs) + [")"] + rest;
    case _ =>
  }

  lemma ToksSeqCons(cs: seq<Node>, rest: seq<string>)
    requires cs != []
    ensures ToksSeq(cs) + rest == Toks(cs[0]) + (ToksSeq(cs[1..]) + rest)
  {
  }

  lemma AppendHeadTail<X>(a: seq<X>, b: seq<X>)
    requires b != []
    ensures a + [b[0]] + b[1..] == a + b
  {
    assert [b[0]] + b[1..] == b;
  }

  lemma ReadableTail(cs: seq<Node>, fs: FloatSyntax)
    requires cs != [] && AllReadable(cs, fs)
    ensures Readable(cs[0], fs)
    ensures AllReadable(cs[1..], fs)
  {
    assert forall i :: 0 <= i < |cs[1..]| ==> cs[1..][i] == cs[i + 1];
  }

  lemma {:induction false} ReadSeq(cs: seq<Node>, rest: seq<string>, closingAllowed: bool, acc: seq<Node>, fs: FloatSyntax)
    requires AllReadable(cs, fs)
    ensures ParseLoop(ToksSeq(cs) + rest, closingAllowed, acc, fs) == ParseLoop(rest, closingAllowed, acc + cs, fs)
    decreases cs
  {
    if cs == [] {
      assert ToksSeq(cs) + rest == rest && acc + cs == acc;
    } else {
      var tail := ToksSeq(cs[1..]) + rest;
      var acc' := acc + [cs[0]];
      ToksSeqCons(cs, rest);
      ReadableTail(cs, fs);
      ReadNode(cs[0], tail, closingAllowed, acc, fs);
      ReadSeq(cs[1..], rest, closingAllowed, acc', fs);
      AppendHeadTail(acc, cs);
    }
  }

  /** Print then read: the tokens of a readable node's printed form read,
      at top level, as that one node. */
  lemma PrintThenRead(n: Node, p: Printer, fs: FloatSyntax)
    requires Readable(n, fs)
    ensures Tokenize(Repr(n, p)) == Toks(n)
    ensures ParseTop(Tokenize(Repr(n, p)), fs) == Success([n])
  {
    RewriteIsPadAll(Repr(n, p));
    LexRepr(n, p, fs);
    ReadNode(n, [], false, [], fs);
    assert Toks(n) + [] == Toks(n);
    var none: seq<Node> := [];
    assert none + [n] == [n];
    assert Toks(n) != [] by {
      match n
      case List(cs) =>
      case _ =>
    }
  }

  /** A one-letter name that is not a decimal is a symbol token. */
  lemma LetterIsSymbolToken(t: string, fs: FloatSyntax)
    requires |t| == 1 && 'a' <= t[0] <= 'z' && !fs.accepts(t)
    ensures SymbolToken(t, fs)
  {
    NonNumericStartRejected(t);
  }

  /** Bools print as `t` and `nil`, which read back as symbols: the printed
      form of a Bool is not a Bool literal. */
  lemma TrueReadsAsSymbol(p: Printer, fs: FloatSyntax)
    requires !fs.accepts("t")
    ensures ParseTop(Tokenize(Repr(Bool(true), p)), fs) == Success([Symbol("t")])
  {
    LetterIsSymbolToken("t", fs);
    PrintThenRead(Symbol("t"), p, fs);
    assert Repr(Bool(true), p) == Repr(Symbol("t"), p);
  }
}
